=== FILE: README.md ===
# TCGplayer card scraper, modelled in Dafny

`scrape_tcgplayer_simple.py` fetches four TCGplayer search pages. It collects card records from each page in three ways:

1. the product list embedded as JSON in the page;
2. a tag-callback HTML parser (`SimpleCardParser`);
3. a regular-expression fallback that picks up card names.

After each page it deduplicates the running list by name. It stops early once 30 cards are collected and saves at most 100.

The modules follow the program's structure:

- `Wrappers`: `Option`.
- `Text`: Python's `str.strip`, `str.lower` on the searched keywords, `in` on strings, `str.startswith`, and the tag removal `re.sub(r'<[^>]+>', '', s)`.
- `Cards`: the card record. Each of the four keys (`name`, `price`, `price_raw`, `url`) is absent or holds a string.
- `TagParser`: the parser state machine. It is a fold of the three handlers over a sequence of tokenizer events.
  - A handler that would raise `AttributeError` yields `None`, and that aborts the feed.
  - A worked listing document checks the handlers end to end.
- `JsonExtract`: the JSON strategy.
  - Choosing the product list among the decoded candidates (`extract_json_data` after `json.loads`).
  - Turning its dictionary items into cards (`extract_cards_from_json`).
- `Aggregate`: the body of `main`.
  - The regex fallback.
  - Deduplication by name, both as a function and as the source's loop.
  - One iteration of the URL loop, and the loop with its stop at 30 cards.
  - The cap of 100.
  - The loop is also written as a method over the fetch results.
- `Seqs`: an indexing fact used by the proofs.

Effects are either parameters or left out:

- A fetched page arrives as what the extractors see of it: the decoded JSON candidates, the tag events, and the captures of each name pattern.
- A failed fetch is `None`.
- `main` takes the fetch as a function parameter.
- Two formatting primitives are parameters (`JsonExtract.Formatters`): `f"{x:.2f}"` on a number and `str(v)` on a non-string value.

Two behaviours of the code are easy to misread:

- **Price spans.** A `span` inside a card always takes the name branch of `handle_starttag` (line 39), so the price branch at line 44 is never reached for a `span`. A listing with `<span class="price">$5.00</span>` inside a card therefore yields a card with a name and a url but no `price_raw`. `TagParser.PriceSpanIgnored` and `TagParser.ListingYieldsOneCard` prove this.
- **The JSON patterns.** A decoded value that holds no product list does not end the search (lines 95-111). The loop carries on over the remaining matches and the remaining patterns, and `JsonExtract.ExtractJsonData` models that.

Python details the model keeps:

- `dict(attrs)` keeps the last of duplicate attributes.
- A bare attribute (`<div class>`) has value `None`. Calling `.lower()` on it, or `.startswith` on a bare `href` of a card-opening `div`, raises an `AttributeError` that nothing catches, so the whole run aborts.
- A JSON boolean counts as an integer price.
- Truthiness follows Python's rules.

## Model

| member | source | states |
|---|---|---|
| TagParser.LastIndex | scrape_tcgplayer_simple.py:25 | `dict(attrs)` keeps the last pair with a given name: the index found holds that name and no later pair does |
| TagParser.Classes | scrape_tcgplayer_simple.py:26 | `attrs_dict.get('class', '').lower()` fails exactly when the class attribute is bare; a missing class gives the empty string, and a present one its lowercase form |
| TagParser.ResolveHref | scrape_tcgplayer_simple.py:33-35 | the link always survives as the tail of the result; a link starting with `/` gets the site origin in front, so the result starts with the origin followed by `/`; any other link is kept as is |
| TagParser.ResolveHrefIdempotent | scrape_tcgplayer_simple.py:33-35 | resolving an already resolved link changes nothing |
| TagParser.OnStartTag | scrape_tcgplayer_simple.py:24-46 | fails exactly on a bare class, or on a bare href of a card-opening div. A card-opening div resets the record (even inside an open card) and stores the resolved href. A name tag inside a card raises in_name exactly when its class names a title. A div or p (never a span) inside a card whose class names a price raises in_price, and only such a tag does. Cards and buffer are untouched |
| TagParser.OnData | scrape_tcgplayer_simple.py:48-53 | inside a name element the text is appended to the buffer and nothing else changes. Otherwise price_raw changes only inside a price element on price-like text, and then becomes the stripped text |
| TagParser.OnEndTag | scrape_tcgplayer_simple.py:55-68 | the card list changes exactly when a div closes an open card outside a price element and the record is non-empty, and then the record is appended. Any such div closes the card. Closing a name element stores the stripped buffer if it has text and resets the buffer. A price tag closes the price element unless the name branch took it, and every other end tag leaves in_price alone. A div inside a price element only clears in_price. An end tag never opens a card |
| TagParser.Step | scrape_tcgplayer_simple.py:24-68 | a callback raises exactly on a start tag with a bare class, or a card-opening div with a bare href, whatever the state |
| TagParser.Feed | scrape_tcgplayer_simple.py:194 | feeding aborts exactly when some event of the document raises |
| TagParser.ParseCards | scrape_tcgplayer_simple.py:192-196 | parsing a page aborts exactly when some event raises; otherwise it gives at most one card per `</div>`, none of them empty |
| TagParser.StepAppends | scrape_tcgplayer_simple.py:24-68 | one callback leaves the card list alone or appends the current, non-empty record |
| TagParser.FeedOnlyAppends | scrape_tcgplayer_simple.py:65-67 | feeding events never changes or removes a collected card, and every appended card is non-empty |
| TagParser.FeedCardsBoundedByDivEnds | scrape_tcgplayer_simple.py:65-67 | a feed collects at most one card per `</div>` |
| TagParser.NoContainerNoCards | scrape_tcgplayer_simple.py:29-68 | without a card-opening start tag no card is ever collected and no card is open |
| TagParser.FeedConcat | scrape_tcgplayer_simple.py:13-68 | feeding two event sequences in a row is feeding their concatenation, and a failure in the first aborts |
| TagParser.PriceIsNoName | scrape_tcgplayer_simple.py:40 | the class `price` contains none of the name keywords |
| TagParser.PriceSpanIgnored | scrape_tcgplayer_simple.py:39-46 | in any parser state, a `<span class="price">` takes the name branch (or no branch) and changes nothing |
| TagParser.HeadingStoresName | scrape_tcgplayer_simple.py:55-60 | in any state inside a name element, closing an `h3` whose buffered text has no whitespace at either end stores that text as the name, leaves the name element and empties the buffer |
| TagParser.ListingYieldsOneCard | scrape_tcgplayer_simple.py:24-68 | a card div with a relative link, a product-name heading and a price span yields exactly one card: the heading text, the absolute link, and no price_raw |
| JsonExtract.FirstKey | scrape_tcgplayer_simple.py:125-128 | the key loop with `break` picks the first key present with an accepted value, and none at all when no key qualifies |
| JsonExtract.ListOf | scrape_tcgplayer_simple.py:101-107 | a list is returned as is. For a dictionary, the list under the first of products/items/results/data that holds a list, or none. Anything else gives nothing |
| JsonExtract.ExtractJsonData | scrape_tcgplayer_simple.py:95-111 | the result is the list of the first candidate that yields one, with every earlier candidate (including failed decodes) yielding none; None exactly when no candidate yields a list |
| JsonExtract.NameField | scrape_tcgplayer_simple.py:125-128 | a name exists exactly when some name key holds a truthy value, and it is `str` of the first such value |
| JsonExtract.PriceText | scrape_tcgplayer_simple.py:133-137 | a price exists exactly for a number, a bool or a string; a number gives `$` followed by its two-decimal form, a bool also starts with `$`, a string gives itself |
| JsonExtract.BoolPricedAsNumber | scrape_tcgplayer_simple.py:134-135 | `True` and `False` are priced as the numbers 1 and 0 |
| JsonExtract.PriceField | scrape_tcgplayer_simple.py:131-138 | no price key present gives no price; a price found either starts with `$` or is a string value of a price key |
| JsonExtract.FirstPresentPriceDecides | scrape_tcgplayer_simple.py:131-138 | the first price key present decides the price alone, even when its value gives none and later keys would |
| JsonExtract.Absolutize | scrape_tcgplayer_simple.py:144-145 | the result always starts with `http`; a link already starting with `http` is kept, any other gets the site origin in front |
| JsonExtract.UrlField | scrape_tcgplayer_simple.py:141-147 | a url exists exactly when some url key holds a truthy value; it is the first such value, stringified and made absolute |
| JsonExtract.CardOf | scrape_tcgplayer_simple.py:120-150 | an item gives a card exactly when it is a dictionary with a name; the card carries that name, the item's price and url fields and no price_raw, and its url starts with `http` |
| JsonExtract.CardsOf | scrape_tcgplayer_simple.py:120-150 | at most one card per dictionary item, each with a name and no price_raw |
| JsonExtract.ExtractCards | scrape_tcgplayer_simple.py:113-152 | input that is not a list gives no cards; a list gives at most one named card per dictionary item |
| JsonExtract.CardsOfAppend | scrape_tcgplayer_simple.py:120-150 | items are handled independently and in order: the cards of a concatenation are the concatenation of the cards |
| JsonExtract.ExtractCardsMembers | scrape_tcgplayer_simple.py:113-152 | the cards of a product list are exactly the cards its items give |
| JsonExtract.CardsOfMembers | scrape_tcgplayer_simple.py:120-150 | a card is among the results exactly when some item gives it |
| JsonExtract.IslandBlobGivesOneCard | scrape_tcgplayer_simple.py:101-152 | `{"products": [{"name": "Island", "marketPrice": 0.25}]}` gives the product list and one card with the two-decimal dollar price |
| Aggregate.FirstNonEmpty | scrape_tcgplayer_simple.py:209-218 | the name patterns are tried in order and the first one with any match is the only one used |
| Aggregate.Truncate | scrape_tcgplayer_simple.py:216 | `name[:200]` is the prefix of length min(len, 200) |
| Aggregate.NameCards | scrape_tcgplayer_simple.py:212-216 | at most one card per capture, holding only a name of 4 to 200 characters |
| Aggregate.NameCardsComplete | scrape_tcgplayer_simple.py:215-217 | every cleaned capture longer than three characters yields its name-only card |
| Aggregate.NameSource | scrape_tcgplayer_simple.py:213-216 | each fallback name is a cleaned capture longer than three characters, cut to 200 |
| Aggregate.NameCardsFromCaptures | scrape_tcgplayer_simple.py:213-216 | each fallback name is what tag removal, stripping and truncation make of one capture |
| Aggregate.RegexFallback | scrape_tcgplayer_simple.py:209-218 | at most ten name-only cards, each name of 4 to 200 characters; nothing when no pattern matched |
| Aggregate.RegexFallbackFromCaptures | scrape_tcgplayer_simple.py:209-218 | every fallback name comes from one of the first ten captures of the first pattern that matched |
| Aggregate.RegexFallbackComplete | scrape_tcgplayer_simple.py:209-218 | each of the first ten captures of the first pattern that matched gives a card when its cleaned text is longer than three characters |
| Aggregate.Dedup | scrape_tcgplayer_simple.py:221-227 | deduplication never adds records |
| Aggregate.JsonCards | scrape_tcgplayer_simple.py:182-189 | no product list, or an empty one, adds no cards; otherwise the cards added are exactly those the list's items give, at most one named card without price_raw per dictionary item |
| Aggregate.DedupLoop | scrape_tcgplayer_simple.py:221-227 | the loop with a set of seen names computes the same list as the declarative deduplication |
| Aggregate.DedupLoopStep | scrape_tcgplayer_simple.py:223-227 | one turn of the loop keeps the next record exactly when its name is non-empty and unseen, and adds its name to the seen set |
| Aggregate.NamesStep | scrape_tcgplayer_simple.py:225-227 | the seen set grows by the name of the next record, if it has one |
| Aggregate.FirstIffUnseen | scrape_tcgplayer_simple.py:224-225 | a record is the first with its name exactly when its name is non-empty and not in the seen set |
| Aggregate.DedupKeeps | scrape_tcgplayer_simple.py:224-227 | the first record with any given non-empty name is kept |
| Aggregate.DedupKeepsFirsts | scrape_tcgplayer_simple.py:224-227 | every first occurrence of a non-empty name is kept |
| Aggregate.DedupSource | scrape_tcgplayer_simple.py:224-227 | every kept record is an input record that is the first with its name |
| Aggregate.DedupOnlyFirsts | scrape_tcgplayer_simple.py:224-227 | only first occurrences are kept |
| Aggregate.DedupClean | scrape_tcgplayer_simple.py:221-227 | the result has no nameless record and no two records with the same name |
| Aggregate.DedupNames | scrape_tcgplayer_simple.py:221-227 | the set of non-empty names is unchanged |
| Aggregate.DedupSubsequence | scrape_tcgplayer_simple.py:221-227 | the result keeps the input order |
| Aggregate.DedupOfClean | scrape_tcgplayer_simple.py:221-227 | an already deduplicated list is unchanged |
| Aggregate.DedupIdempotent | scrape_tcgplayer_simple.py:221-227 | deduplicating twice is deduplicating once |
| Aggregate.DedupPrefix | scrape_tcgplayer_simple.py:221-227 | appending records never disturbs the deduplication of what came before |
| Aggregate.ProcessPage | scrape_tcgplayer_simple.py:181-227 | one page aborts the run exactly when the tag parser raises; otherwise the new running list is clean, extends the old one, and holds exactly the names of the old list and of the JSON, HTML and regex cards |
| Aggregate.Collect | scrape_tcgplayer_simple.py:167-233 | the running list stays clean and only grows from page to page |
| Aggregate.Capped | scrape_tcgplayer_simple.py:245 | `all_cards[:100]` is the prefix of length min(len, 100) |
| Aggregate.Run | scrape_tcgplayer_simple.py:165-255 | a completed run saves a clean prefix of the collected list, of length min(collected, 100) |
| Aggregate.Main | scrape_tcgplayer_simple.py:154-255 | the saved list is clean and at most 100 long; with every one of the four fetches failed nothing is saved; every saved name was found by the three extractors on some fetched page, and every such name is saved unless the loop stopped at 30 cards; of the failures modelled (a raising tag callback), the run aborts only on a fetched page whose tag events raise, and always when the first page is one |
| Aggregate.Fetched | scrape_tcgplayer_simple.py:158-169 | the pages are the fetches of the four search URLs, in order |
| Aggregate.MainAborts | scrape_tcgplayer_simple.py:165-196 | of the failures modelled, an aborted run has a fetched page whose tag events raise, and a raising first page aborts it |
| Aggregate.MainNames | scrape_tcgplayer_simple.py:165-245 | every saved name was found on some fetched page, and every name found on a fetched page is saved unless the loop stopped at 30 cards |
| Aggregate.RunAbortsOnRaise | scrape_tcgplayer_simple.py:167-196 | of the failures modelled, an aborted run has a fetched page whose tag events raise |
| Aggregate.FirstPageRaiseAborts | scrape_tcgplayer_simple.py:167-196 | a fetched first page whose tag events raise aborts the run |
| Aggregate.CollectAbortsOnRaise | scrape_tcgplayer_simple.py:167-233 | of the failures modelled, the loop aborts only on a fetched page whose tag events raise |
| Aggregate.RaiseAbortsHere | scrape_tcgplayer_simple.py:192-194 | a fetched page whose tag events raise aborts the loop when it is next |
| Aggregate.RaiseAborts | scrape_tcgplayer_simple.py:167-233 | a fetched page whose tag events raise aborts the loop when it is reached with fewer than 30 cards |
| Aggregate.PageAddsItsNames | scrape_tcgplayer_simple.py:181-227 | a processed page adds to the running list exactly the names its JSON, HTML and regex extractors find |
| Aggregate.CollectNames | scrape_tcgplayer_simple.py:167-233 | the loop keeps only names it started with or found on a fetched page, and all of them when it ends below 30 cards |
| Aggregate.RunNames | scrape_tcgplayer_simple.py:165-245 | a saved list holds only names found on the pages, and all of them when fewer than 30 are saved |
| Aggregate.FoundNamesMembers | scrape_tcgplayer_simple.py:167-217 | a name counts as found exactly when one of the fetched pages offers it |
| Aggregate.Scrape | scrape_tcgplayer_simple.py:165-245 | the loop as written, with `continue`, the early exit at 30 cards and the crash, computes the same outcome as `Run` |
| Aggregate.AllFetchesFailed | scrape_tcgplayer_simple.py:169-173 | pages that all failed to fetch leave the running list as it was |
| Aggregate.NothingFetchedNothingSaved | scrape_tcgplayer_simple.py:169-173 | with every fetch failed the run completes with no cards |
| Aggregate.EnoughStopsTheLoop | scrape_tcgplayer_simple.py:231-233 | once 30 cards are collected, later pages are never consulted |
| Aggregate.CollectSplit | scrape_tcgplayer_simple.py:167-233 | looping over two page lists in a row either stops within the first or continues from where the first ended, and it continues whenever the first ended with fewer than 30 cards |
| Aggregate.RunningListGrows | scrape_tcgplayer_simple.py:167-233 | the cards kept after some pages stay in place after any later pages |
| Text.TrimLeft | scrape_tcgplayer_simple.py:57 | only whitespace is removed from the front, and what is left does not start with whitespace |
| Text.TrimRight | scrape_tcgplayer_simple.py:57 | only whitespace is removed from the back, and what is left does not end with whitespace |
| Text.Strip | scrape_tcgplayer_simple.py:57 | `str.strip()` is a slice of the input with only whitespace cut off either end, neither starting nor ending with whitespace |
| Text.StripUnchanged | scrape_tcgplayer_simple.py:57-58 | text without whitespace at either end is its own strip |
| Text.StripEmptyIffBlank | scrape_tcgplayer_simple.py:57 | the strip is empty exactly when the text is all whitespace |
| Text.StripIdempotent | scrape_tcgplayer_simple.py:57-58 | stripping twice is stripping once |
| Text.LowerChar | scrape_tcgplayer_simple.py:26 | a character changes exactly when it is an ASCII capital, and it becomes the small letter at the same alphabet position; no capital comes out |
| Text.Lower | scrape_tcgplayer_simple.py:26 | lowercasing keeps the length, turns each ASCII capital into the small letter at the same alphabet position, leaves every other character in place, and leaves capital-free text unchanged |
| Text.LowerIdempotent | scrape_tcgplayer_simple.py:26 | lowercasing twice is lowercasing once |
| Text.ContainsIffOccurs | scrape_tcgplayer_simple.py:29 | the scan for `sub in s` agrees with "sub occurs at some position of s" |
| Text.IndexOfGt | scrape_tcgplayer_simple.py:214 | the index found is the first `>` |
| Text.RemoveTags | scrape_tcgplayer_simple.py:214 | tag removal never lengthens the text, and text without `<` is unchanged |
| Text.RemoveTagsChars | scrape_tcgplayer_simple.py:214 | every character of the result occurs in the input |
| Text.RemoveTagsKeepsPlainPrefix | scrape_tcgplayer_simple.py:214 | text before the first `<` survives unchanged, ahead of what tag removal makes of the rest |
| Text.RemoveTagsDropsTag | scrape_tcgplayer_simple.py:214 | a whole tag `<x>` is deleted and the scan resumes right after its `>`, so the text after it is kept |
| Text.TextAroundTag | scrape_tcgplayer_simple.py:214 | plain text before a tag survives, the tag goes, and the text after it is kept as tag removal leaves it |
| Text.TextBetweenTags | scrape_tcgplayer_simple.py:214 | plain text between an opening and a closing tag is exactly what survives |
| Text.AnchorCaptureKeepsText | scrape_tcgplayer_simple.py:214 | the link capture `<a href="/p/1">Black Lotus</a>` becomes `Black Lotus` |
| Text.RemoveTagsLeavesNoTag | scrape_tcgplayer_simple.py:214 | no match of `<[^>]+>` starts anywhere in the result |
| Text.RemoveTagsNoTagUnchanged | scrape_tcgplayer_simple.py:214 | text with no tag match anywhere is unchanged |
| Text.RemoveTagsIdempotent | scrape_tcgplayer_simple.py:214 | removing tags twice is removing them once |

## Left out

- Fetching (`get_page`, lines 70-82): the HTTP request, its headers and timeout. Each page arrives as its extracted pieces, and a failed fetch is `None`.
- The regular-expression searches. The JSON candidate patterns (lines 87-96) and the name patterns (lines 202-210) are inputs: their matches arrive as data. Only the tag-removal substitution at line 214 is modelled.
- The JSON decoder (`json.loads`). A candidate arrives decoded, or as `None` when decoding raised `JSONDecodeError`. NaN and Infinity numbers are not modelled, and integers and floats share one number type.
- The HTML tokenizer (`HTMLParser.feed`). The page arrives as its start-tag, text and end-tag events.
  - The 500000-character slice is applied before tokenizing, so it is left out as well.
  - Character references, comments and unclosed tags are the tokenizer's business.
- `f"{x:.2f}"` and `str(v)` of non-string values. These are the function parameters of `JsonExtract.Formatters`, because they depend on float formatting.
- Text.Lower: lowercases ASCII letters only, because the lowercased text is only ever searched for ASCII keywords. The only non-ASCII characters whose Python lowercase contains an ASCII letter are U+212A and U+0130, and neither can complete one of those keywords.
- Writing the debug HTML, the JSON results file and the text report, the console output, and the two-second sleep (lines 175-178, 235-276). The saved list `all_cards[:100]` is modelled. Its serialization is not.
- Exceptions from the parts left out. Any of them ends the run just as a raising tag callback does, and the abort clauses of `Aggregate.Main`, `Aggregate.MainAborts`, `Aggregate.RunAbortsOnRaise` and `Aggregate.CollectAbortsOnRaise` cover only that modelled failure:
  - the debug write at line 176 opens a file under a fixed home directory with no `try`, so it raises on the first fetched page wherever that directory is missing;
  - `json.loads` can raise errors other than `JSONDecodeError`, which is all line 108 catches (for example a `ValueError` on an over-long integer);
  - the tokenizer can raise on its own.
- `scrape_tcgplayer.py` and `scrape_tcgplayer_puppeteer.js` are not part of this model.

=== FILE: aggregate.dfy ===
/** The body of `main`: per search URL, the embedded-JSON cards, the tag
    parser's cards and the regex fallback's names are appended to the running
    list, which is then deduplicated by name; the loop stops early once 30
    cards are collected, and at most 100 are saved. Fetching, file writing,
    sleeping and console output are not part of this model: each fetched page
    arrives as its already-extracted pieces. */
module Aggregate {
  import opened Wrappers
  import opened Text
  import opened Cards
  import TagParser
  import JsonExtract
  import Seqs

  const MaxNameMatches: nat := 10
  const MaxNameLength: nat := 200
  const EnoughCards: nat := 30
  const MaxSaved: nat := 100

  function Min(a: nat, b: nat): nat { if a <= b then a else b }

  // ---------------------------------------------------------------------
  // Regex fallback

  /** A record holding nothing but a name. */
  predicate NameOnly(c: Card) {
    c.name.Some? && c.price.None? && c.priceRaw.None? && c.url.None?
  }

  /** The captures of the first name pattern that matched at all; the later
      patterns are not consulted. */
  function FirstNonEmpty(groups: seq<seq<string>>): (r: seq<string>)
    ensures r != [] ==> exists i :: 0 <= i < |groups| && groups[i] == r
                                    && forall j :: 0 <= j < i ==> groups[j] == []
    ensures r == [] ==> forall i :: 0 <= i < |groups| ==> groups[i] == []
    decreases |groups|
  {
    if |groups| == 0 then []
    else if groups[0] != [] then groups[0]
    else
      var r := FirstNonEmpty(groups[1..]);
      assert forall i :: 1 <= i < |groups| ==> groups[i] == groups[1..][i - 1];
      r
  }

  /** A capture with its nested markup removed and whitespace stripped. */
  function Cleaned(capture: string): string {
    Strip(RemoveTags(capture))
  }

  /** `name[:200]`. */
  function Truncate(name: string): (r: string)
    ensures |r| == Min(|name|, MaxNameLength) && r == name[..|r|]
  {
    if |name| <= MaxNameLength then name else name[..MaxNameLength]
  }

  /** `name` is what the fallback makes of `capture`. */
  predicate FromCapture(name: string, capture: string) {
    |Cleaned(capture)| > 3 && name == Truncate(Cleaned(capture))
  }

  /** Each capture with its markup removed and its whitespace stripped. */
  function CleanedAll(captures: seq<string>): (r: seq<string>)
    ensures |r| == |captures|
  {
    seq(|captures|, i requires 0 <= i < |captures| => Cleaned(captures[i]))
  }

  /** The loop over the cleaned captures: a name-only card for each one longer
      than three characters, cut to 200. */
  function NameCards(names: seq<string>): (r: seq<Card>)
    ensures |r| <= |names|
    ensures forall k :: 0 <= k < |r| ==> NameOnly(r[k]) && 3 < |NameOf(r[k])| <= MaxNameLength
    decreases |names|
  {
    if |names| == 0 then []
    else
      var rest := NameCards(names[1..]);
      if |names[0]| > 3 then [Card(Some(Truncate(names[0])), None, None, None)] + rest else rest
  }

  /** Card `k` of the loop comes from name `j`: longer than three characters
      and cut to 200. */
  lemma {:induction false} NameSource(names: seq<string>, k: int) returns (j: int)
    requires 0 <= k < |NameCards(names)|
    ensures 0 <= j < |names| && |names[j]| > 3 && NameOf(NameCards(names)[k]) == Truncate(names[j])
    decreases |names|
  {
    var rest := NameCards(names[1..]);
    if |names[0]| > 3 && k == 0 {
      j := 0;
    } else {
      var k' := if |names[0]| > 3 then k - 1 else k;
      assert NameCards(names)[k] == rest[k'];
      var j' := NameSource(names[1..], k');
      Seqs.IndexTail(names, j');
      j := j' + 1;
    }
  }

  /** Every cleaned capture longer than three characters yields its card. */
  lemma {:induction false} NameCardsComplete(names: seq<string>, j: int)
    requires 0 <= j < |names| && |names[j]| > 3
    ensures Card(Some(Truncate(names[j])), None, None, None) in NameCards(names)
    decreases |names|
  {
    var head := if |names[0]| > 3 then [Card(Some(Truncate(names[0])), None, None, None)] else [];
    var rest := NameCards(names[1..]);
    assert NameCards(names) == head + rest;
    if j > 0 {
      Seqs.IndexTail(names, j - 1);
      NameCardsComplete(names[1..], j - 1);
    }
  }

  /** `name` is what the fallback makes of one of `captures`. */
  predicate FromSomeCapture(name: string, captures: seq<string>) {
    exists j :: 0 <= j < |captures| && FromCapture(name, captures[j])
  }

  /** Every name the loop produces comes from one capture. */
  lemma {:induction false} NameCardsFromCaptures(captures: seq<string>)
    ensures var r := NameCards(CleanedAll(captures));
            forall k :: 0 <= k < |r| ==> FromSomeCapture(NameOf(r[k]), captures)
  {
    var names := CleanedAll(captures);
    forall k | 0 <= k < |NameCards(names)|
      ensures FromSomeCapture(NameOf(NameCards(names)[k]), captures)
    {
      var j := NameSource(names, k);
      assert names[j] == Cleaned(captures[j]);
      assert FromCapture(NameOf(NameCards(names)[k]), captures[j]);
    }
  }

  /** The regex fallback stage: at most ten name-only cards, each from one of
      the first ten captures of the first pattern that matched. */
  function RegexFallback(groups: seq<seq<string>>): (r: seq<Card>)
    ensures |r| <= MaxNameMatches
    ensures forall k :: 0 <= k < |r| ==> NameOnly(r[k]) && 3 < |NameOf(r[k])| <= MaxNameLength
    ensures (forall i :: 0 <= i < |groups| ==> groups[i] == []) ==> r == []
  {
    var captures := FirstNonEmpty(groups);
    NameCards(CleanedAll(captures[..Min(|captures|, MaxNameMatches)]))
  }

  /** Every fallback name is what the fallback makes of one of the first ten
      captures of the first pattern that matched. */
  lemma RegexFallbackFromCaptures(groups: seq<seq<string>>)
    ensures var captures := FirstNonEmpty(groups);
            var firstTen := captures[..Min(|captures|, MaxNameMatches)];
            forall k :: 0 <= k < |RegexFallback(groups)| ==> FromSomeCapture(NameOf(RegexFallback(groups)[k]), firstTen)
  {
    var captures := FirstNonEmpty(groups);
    var firstTen := captures[..Min(|captures|, MaxNameMatches)];
    assert RegexFallback(groups) == NameCards(CleanedAll(firstTen));
    NameCardsFromCaptures(firstTen);
  }

  /** Each of the first ten captures of the first pattern that matched gives
      a card when its cleaned text is longer than three characters. */
  lemma RegexFallbackComplete(groups: seq<seq<string>>, j: int)
    requires 0 <= j < Min(|FirstNonEmpty(groups)|, MaxNameMatches)
    requires |Cleaned(FirstNonEmpty(groups)[j])| > 3
    ensures Card(Some(Truncate(Cleaned(FirstNonEmpty(groups)[j]))), None, None, None) in RegexFallback(groups)
  {
    var captures := FirstNonEmpty(groups);
    var firstTen := captures[..Min(|captures|, MaxNameMatches)];
    assert RegexFallback(groups) == NameCards(CleanedAll(firstTen));
    assert CleanedAll(firstTen)[j] == Cleaned(captures[j]);
    NameCardsComplete(CleanedAll(firstTen), j);
  }

  // ---------------------------------------------------------------------
  // Deduplication by name

  /** Record `i` carries a name not seen before it. */
  predicate IsFirst(cards: seq<Card>, i: int)
    requires 0 <= i < |cards|
  {
    NameOf(cards[i]) != "" && forall j :: 0 <= j < i ==> NameOf(cards[j]) != NameOf(cards[i])
  }

  /** Every record has a name and no two share one. */
  predicate Clean(cards: seq<Card>) {
    && (forall i :: 0 <= i < |cards| ==> NameOf(cards[i]) != "")
    && (forall i, j :: 0 <= i < j < |cards| ==> NameOf(cards[i]) != NameOf(cards[j]))
  }

  /** The non-empty names in a list. */
  function Names(cards: seq<Card>): set<string> {
    set i | 0 <= i < |cards| && NameOf(cards[i]) != "" :: NameOf(cards[i])
  }

  predicate IsPrefix(a: seq<Card>, b: seq<Card>) {
    |a| <= |b| && b[..|a|] == a
  }

  /** `a` is an order-preserving subsequence of `b`. */
  predicate Subsequence(a: seq<Card>, b: seq<Card>)
    decreases |b|
  {
    if |a| == 0 then true
    else if |b| == 0 then false
    else (a[|a| - 1] == b[|b| - 1] && Subsequence(a[..|a| - 1], b[..|b| - 1]))
         || Subsequence(a, b[..|b| - 1])
  }

  lemma PrefixTransitive(a: seq<Card>, b: seq<Card>, c: seq<Card>)
    requires IsPrefix(a, b) && IsPrefix(b, c)
    ensures IsPrefix(a, c)
  {
    assert c[..|a|] == c[..|b|][..|a|];
  }

  /** The records that are the first with their name, in input order. */
  function Dedup(cards: seq<Card>): (r: seq<Card>)
    ensures |r| <= |cards|
    decreases |cards|
  {
    if |cards| == 0 then []
    else
      var n := |cards| - 1;
      var prev := Dedup(cards[..n]);
      if IsFirst(cards, n) then prev + [cards[n]] else prev
  }

  /** Deduplication grows by the last record exactly when it is first with its name. */
  lemma DedupStep(cards: seq<Card>)
    requires |cards| > 0
    ensures Dedup(cards) == Dedup(cards[..|cards| - 1])
                            + (if IsFirst(cards, |cards| - 1) then [cards[|cards| - 1]] else [])
  {
  }

  /** The loop of the source: a record is kept when its name is non-empty and
      not yet in the set of seen names. */
  method DedupLoop(cards: seq<Card>) returns (unique: seq<Card>)
    ensures unique == Dedup(cards)
  {
    unique := [];
    var seen: set<string> := {};
    var i := 0;
    while i < |cards|
      invariant 0 <= i <= |cards|
      invariant unique == Dedup(cards[..i])
      invariant seen == Names(cards[..i])
    {
      var name := NameOf(cards[i]);
      DedupLoopStep(cards, i);
      if name != "" && name !in seen {
        seen := seen + {name};
        unique := unique + [cards[i]];
      }
      i := i + 1;
    }
    assert cards[..|cards|] == cards;
  }

  /** One turn of the loop in `DedupLoop`: the next record is kept exactly when
      its name is non-empty and unseen, and then its name is seen. */
  lemma DedupLoopStep(cards: seq<Card>, i: int)
    requires 0 <= i < |cards|
    ensures Dedup(cards[..i + 1]) == Dedup(cards[..i])
              + (if NameOf(cards[i]) != "" && NameOf(cards[i]) !in Names(cards[..i]) then [cards[i]] else [])
    ensures Names(cards[..i + 1]) == Names(cards[..i]) + (if NameOf(cards[i]) != "" then {NameOf(cards[i])} else {})
  {
    FirstIffUnseen(cards[..i + 1], i);
    assert cards[..i + 1][..i] == cards[..i];
    assert cards[..i + 1][i] == cards[i];
    DedupStep(cards[..i + 1]);
    NamesStep(cards, i);
  }

  /** The names of a prefix grow by the name of the next record, if it has one. */
  lemma NamesStep(cards: seq<Card>, i: int)
    requires 0 <= i < |cards|
    ensures Names(cards[..i + 1]) == Names(cards[..i]) + (if NameOf(cards[i]) != "" then {NameOf(cards[i])} else {})
  {
    var longer := cards[..i + 1];
    forall n | n in Names(longer)
      ensures n in Names(cards[..i]) || n == NameOf(cards[i])
    {
      var j :| 0 <= j < i + 1 && NameOf(longer[j]) != "" && NameOf(longer[j]) == n;
      if j < i {
        assert longer[j] == cards[..i][j];
      }
    }
    forall n | n in Names(cards[..i])
      ensures n in Names(longer)
    {
      var j :| 0 <= j < i && NameOf(cards[..i][j]) != "" && NameOf(cards[..i][j]) == n;
      assert longer[j] == cards[..i][j];
    }
    if NameOf(cards[i]) != "" {
      assert longer[i] == cards[i];
    }
  }

  /** Being first with a name is having a non-empty name not among the names before. */
  lemma FirstIffUnseen(cards: seq<Card>, i: int)
    requires 0 <= i < |cards|
    ensures IsFirst(cards, i) <==> NameOf(cards[i]) != "" && NameOf(cards[i]) !in Names(cards[..i])
  {
    if NameOf(cards[i]) in Names(cards[..i]) {
      var j :| 0 <= j < i && NameOf(cards[..i][j]) != "" && NameOf(cards[..i][j]) == NameOf(cards[i]);
      assert cards[..i][j] == cards[j];
    }
  }

  /** A record that is the first with its name is kept. */
  lemma {:induction false} DedupKeeps(cards: seq<Card>, i: int)
    requires 0 <= i < |cards| && IsFirst(cards, i)
    ensures cards[i] in Dedup(cards)
    decreases |cards|
  {
    var n := |cards| - 1;
    var init := cards[..n];
    DedupStep(cards);
    if i < n {
      assert init[i] == cards[i];
      assert forall j :: 0 <= j < i ==> init[j] == cards[j];
      DedupKeeps(init, i);
    }
  }

  /** Every first occurrence of a name is kept. */
  lemma {:induction false} DedupKeepsFirsts(cards: seq<Card>)
    ensures forall i :: 0 <= i < |cards| && IsFirst(cards, i) ==> cards[i] in Dedup(cards)
  {
    forall i | 0 <= i < |cards| && IsFirst(cards, i)
      ensures cards[i] in Dedup(cards)
    {
      DedupKeeps(cards, i);
    }
  }

  /** Kept record `k` is record `i` of the input, the first with its name. */
  lemma {:induction false} DedupSource(cards: seq<Card>, k: int) returns (i: int)
    requires 0 <= k < |Dedup(cards)|
    ensures 0 <= i < |cards| && IsFirst(cards, i) && Dedup(cards)[k] == cards[i]
    decreases |cards|
  {
    var n := |cards| - 1;
    var init := cards[..n];
    DedupStep(cards);
    if k < |Dedup(init)| {
      i := DedupSource(init, k);
      assert init[i] == cards[i];
      assert forall j :: 0 <= j < i ==> init[j] == cards[j];
    } else {
      i := n;
    }
  }

  /** `c` is the first record of `cards` with its name. */
  predicate FirstOf(cards: seq<Card>, c: Card) {
    exists i :: 0 <= i < |cards| && IsFirst(cards, i) && c == cards[i]
  }

  /** Every kept record is the first with its name. */
  lemma {:induction false} DedupOnlyFirsts(cards: seq<Card>)
    ensures forall k :: 0 <= k < |Dedup(cards)| ==> FirstOf(cards, Dedup(cards)[k])
  {
    forall k | 0 <= k < |Dedup(cards)|
      ensures FirstOf(cards, Dedup(cards)[k])
    {
      var i := DedupSource(cards, k);
      assert IsFirst(cards, i) && Dedup(cards)[k] == cards[i];
    }
  }

  /** Appending a record whose name is new keeps a list clean. */
  lemma CleanSnoc(a: seq<Card>, x: Card)
    requires Clean(a) && NameOf(x) != ""
    requires forall k :: 0 <= k < |a| ==> NameOf(a[k]) != NameOf(x)
    ensures Clean(a + [x])
  {
    var b := a + [x];
    assert forall k :: 0 <= k < |a| ==> b[k] == a[k];
  }

  /** The output has only named records, with pairwise distinct names. */
  lemma {:induction false} DedupClean(cards: seq<Card>)
    ensures Clean(Dedup(cards))
    decreases |cards|
  {
    if |cards| > 0 {
      var n := |cards| - 1;
      var init := cards[..n];
      var prev := Dedup(init);
      DedupClean(init);
      DedupStep(cards);
      if IsFirst(cards, n) {
        forall k | 0 <= k < |prev|
          ensures NameOf(prev[k]) != NameOf(cards[n])
        {
          var i := DedupSource(init, k);
          assert init[i] == cards[i];
        }
        CleanSnoc(prev, cards[n]);
      }
    } else {
      assert Dedup(cards) == [];
    }
  }

  /** Deduplication keeps exactly the names of the input. */
  lemma DedupNames(cards: seq<Card>)
    ensures Names(Dedup(cards)) == Names(cards)
  {
    var r := Dedup(cards);
    forall n | n in Names(cards)
      ensures n in Names(r)
    {
      var i :| 0 <= i < |cards| && NameOf(cards[i]) != "" && NameOf(cards[i]) == n;
      var f := FirstWithName(cards, i);
      DedupKeeps(cards, f);
      var k :| 0 <= k < |r| && r[k] == cards[f];
    }
    forall n | n in Names(r)
      ensures n in Names(cards)
    {
      var k :| 0 <= k < |r| && NameOf(r[k]) != "" && NameOf(r[k]) == n;
      var i := DedupSource(cards, k);
    }
  }

  /** The position of the first record sharing the name of record `i`. */
  lemma FirstWithName(cards: seq<Card>, i: int) returns (f: int)
    requires 0 <= i < |cards| && NameOf(cards[i]) != ""
    ensures 0 <= f <= i && IsFirst(cards, f) && NameOf(cards[f]) == NameOf(cards[i])
  {
    f := 0;
    while NameOf(cards[f]) != NameOf(cards[i])
      invariant 0 <= f <= i
      invariant forall j :: 0 <= j < f ==> NameOf(cards[j]) != NameOf(cards[i])
      decreases i - f
    {
      f := f + 1;
    }
  }

  /** The output is an order-preserving subsequence of the input. */
  lemma {:induction false} DedupSubsequence(cards: seq<Card>)
    ensures Subsequence(Dedup(cards), cards)
    decreases |cards|
  {
    if |cards| > 0 {
      var n := |cards| - 1;
      var prev := Dedup(cards[..n]);
      DedupSubsequence(cards[..n]);
      DedupStep(cards);
      if IsFirst(cards, n) {
        assert (prev + [cards[n]])[..|prev|] == prev;
      }
    }
  }

  /** A clean list is its own deduplication. */
  lemma {:induction false} DedupOfClean(cards: seq<Card>)
    requires Clean(cards)
    ensures Dedup(cards) == cards
    decreases |cards|
  {
    if |cards| > 0 {
      var n := |cards| - 1;
      var init := cards[..n];
      CleanPrefix(cards, n);
      DedupOfClean(init);
      LastOfCleanIsFirst(cards);
      DedupKeepsLast(cards);
    }
  }

  /** A list whose front deduplicates to itself and whose last record is the
      first with its name deduplicates to itself. */
  lemma DedupKeepsLast(cards: seq<Card>)
    requires |cards| > 0 && Dedup(cards[..|cards| - 1]) == cards[..|cards| - 1]
    requires IsFirst(cards, |cards| - 1)
    ensures Dedup(cards) == cards
  {
    DedupStep(cards);
    assert cards[..|cards| - 1] + [cards[|cards| - 1]] == cards;
  }

  lemma CleanPrefix(cards: seq<Card>, n: nat)
    requires Clean(cards) && n <= |cards|
    ensures Clean(cards[..n])
  {
    var init := cards[..n];
    forall i, j | 0 <= i < j < |init|
      ensures NameOf(init[i]) != NameOf(init[j])
    {
      assert init[i] == cards[i] && init[j] == cards[j];
    }
  }

  lemma LastOfCleanIsFirst(cards: seq<Card>)
    requires Clean(cards) && |cards| > 0
    ensures IsFirst(cards, |cards| - 1)
  {
  }

  /** Deduplicating a second time changes nothing. */
  lemma DedupIdempotent(cards: seq<Card>)
    ensures Dedup(Dedup(cards)) == Dedup(cards)
  {
    DedupClean(cards);
    DedupOfClean(Dedup(cards));
  }

  /** Appending records never changes what deduplication kept from the front. */
  lemma {:induction false} DedupPrefix(x: seq<Card>, y: seq<Card>)
    ensures IsPrefix(Dedup(x), Dedup(x + y))
    decreases |y|
  {
    if |y| == 0 {
      assert x + y == x;
    } else {
      var y' := y[..|y| - 1];
      assert (x + y)[..|x + y| - 1] == x + y';
      DedupPrefix(x, y');
    }
  }

  // ---------------------------------------------------------------------
  // One page and the whole run

  /** What one fetched page offers the extractors: the decoded JSON candidates
      (None for a match that failed to decode), the tag events of its first
      500000 characters, and the captures of each name pattern. */
  datatype Page = Page(
    jsonCandidates: seq<Option<JsonExtract.Json>>,
    events: seq<TagParser.Event>,
    nameMatches: seq<seq<string>>)

  /** Method 1: cards from the embedded JSON, only when a non-empty list was found. */
  function JsonCards(page: Page, fmt: JsonExtract.Formatters): (r: seq<Card>)
    ensures var data := JsonExtract.ExtractJsonData(page.jsonCandidates);
            (data.None? || data.value == []) ==> r == []
    ensures var data := JsonExtract.ExtractJsonData(page.jsonCandidates);
            data.Some? ==> |r| <= JsonExtract.DictCount(data.value)
    ensures forall k :: 0 <= k < |r| ==> r[k].name.Some? && r[k].priceRaw.None?
    // the cards are exactly those the items of the product list give
    ensures var data := JsonExtract.ExtractJsonData(page.jsonCandidates);
            data.Some? ==> forall c :: c in r <==> JsonExtract.GivenBy(data.value, fmt, c)
  {
    var data := JsonExtract.ExtractJsonData(page.jsonCandidates);
    if data.Some? && |data.value| > 0 then
      JsonExtract.ExtractCardsMembers(data.value, fmt);
      JsonExtract.ExtractCards(JsonExtract.JArr(data.value), fmt)
    else []
  }

  /** One iteration of the URL loop: None when the tag parser raised, which
      ends the whole run; otherwise the deduplicated running list. */
  function ProcessPage(acc: seq<Card>, page: Page, fmt: JsonExtract.Formatters): (r: Option<seq<Card>>)
    ensures r.None? <==> TagParser.ParseCards(page.events).None?
    ensures r.Some? ==> Clean(r.value)
    ensures r.Some? && Clean(acc) ==> IsPrefix(acc, r.value)
    // every name the three extractors found on the page reaches the list
    ensures r.Some? ==> Names(r.value) == Names(acc + (JsonCards(page, fmt) + TagParser.ParseCards(page.events).value
                                                 + RegexFallback(page.nameMatches)))
  {
    match TagParser.ParseCards(page.events)
    case None => None
    case Some(htmlCards) =>
      var added := JsonCards(page, fmt) + htmlCards + RegexFallback(page.nameMatches);
      var r := Dedup(acc + added);
      DedupClean(acc + added);
      DedupNames(acc + added);
      DedupPrefix(acc, added);
      if Clean(acc) then DedupOfClean(acc); Some(r) else Some(r)
  }

  /** The names the three extractors find on one fetch result: none for a
      failed fetch or a page whose tag events raise. */
  function PageNames(page: Option<Page>, fmt: JsonExtract.Formatters): set<string> {
    if page.None? then {}
    else match TagParser.ParseCards(page.value.events)
      case None => {}
      case Some(htmlCards) =>
        Names(JsonCards(page.value, fmt) + htmlCards + RegexFallback(page.value.nameMatches))
  }

  /** The union of a sequence of sets. */
  function UnionAll(sets: seq<set<string>>): set<string>
    decreases |sets|
  {
    if |sets| == 0 then {} else sets[0] + UnionAll(sets[1..])
  }

  /** An element of the union lies in one of the sets, and conversely. */
  lemma {:induction false} UnionAllMembers(sets: seq<set<string>>, n: string)
    ensures n in UnionAll(sets) <==> exists i :: 0 <= i < |sets| && n in sets[i]
    decreases |sets|
  {
    if |sets| > 0 {
      UnionAllMembers(sets[1..], n);
      if exists i :: 0 <= i < |sets| && n in sets[i] {
        var i :| 0 <= i < |sets| && n in sets[i];
        if i > 0 {
          assert sets[1..][i - 1] == sets[i];
        }
      }
      if exists i :: 0 <= i < |sets[1..]| && n in sets[1..][i] {
        var i :| 0 <= i < |sets[1..]| && n in sets[1..][i];
        assert sets[1..][i] == sets[i + 1];
      }
    }
  }

  /** The names found on any of the pages. */
  function FoundNames(pages: seq<Option<Page>>, fmt: JsonExtract.Formatters): set<string> {
    UnionAll(seq(|pages|, i requires 0 <= i < |pages| => PageNames(pages[i], fmt)))
  }

  /** The names found on the pages are those of the first page and those
      found on the rest. */
  lemma FoundNamesSplit(pages: seq<Option<Page>>, fmt: JsonExtract.Formatters)
    requires |pages| > 0
    ensures FoundNames(pages, fmt) == PageNames(pages[0], fmt) + FoundNames(pages[1..], fmt)
  {
    var sets := seq(|pages|, i requires 0 <= i < |pages| => PageNames(pages[i], fmt));
    var rest := seq(|pages[1..]|, i requires 0 <= i < |pages[1..]| => PageNames(pages[1..][i], fmt));
    assert sets[1..] == rest;
  }

  /** A name is found on the pages exactly when one of them offers it. */
  lemma FoundNamesMembers(pages: seq<Option<Page>>, fmt: JsonExtract.Formatters)
    ensures forall n :: n in FoundNames(pages, fmt) <==>
                        exists i :: 0 <= i < |pages| && n in PageNames(pages[i], fmt)
  {
    var sets := seq(|pages|, i requires 0 <= i < |pages| => PageNames(pages[i], fmt));
    forall n | n in FoundNames(pages, fmt)
      ensures exists i :: 0 <= i < |pages| && n in PageNames(pages[i], fmt)
    {
      UnionAllMembers(sets, n);
      var i :| 0 <= i < |sets| && n in sets[i];
      assert sets[i] == PageNames(pages[i], fmt);
    }
    forall n, i | 0 <= i < |pages| && n in PageNames(pages[i], fmt)
      ensures n in FoundNames(pages, fmt)
    {
      assert n in sets[i];
      UnionAllMembers(sets, n);
    }
  }

  lemma NamesAppend(a: seq<Card>, b: seq<Card>)
    ensures Names(a + b) == Names(a) + Names(b)
  {
    forall n | n in Names(a + b)
      ensures n in Names(a) || n in Names(b)
    {
      var i :| 0 <= i < |a + b| && NameOf((a + b)[i]) != "" && NameOf((a + b)[i]) == n;
      if i >= |a| {
        assert (a + b)[i] == b[i - |a|];
      }
    }
    forall n | n in Names(a)
      ensures n in Names(a + b)
    {
      var i :| 0 <= i < |a| && NameOf(a[i]) != "" && NameOf(a[i]) == n;
      assert (a + b)[i] == a[i];
    }
    forall n | n in Names(b)
      ensures n in Names(a + b)
    {
      var i :| 0 <= i < |b| && NameOf(b[i]) != "" && NameOf(b[i]) == n;
      assert (a + b)[|a| + i] == b[i];
    }
  }

  lemma NamesOfPrefix(a: seq<Card>, b: seq<Card>)
    requires IsPrefix(a, b)
    ensures Names(a) <= Names(b)
  {
    forall n | n in Names(a)
      ensures n in Names(b)
    {
      var i :| 0 <= i < |a| && NameOf(a[i]) != "" && NameOf(a[i]) == n;
      assert b[i] == a[i];
    }
  }

  /** A processed page adds exactly the names its extractors find. */
  lemma PageAddsItsNames(acc: seq<Card>, page: Page, fmt: JsonExtract.Formatters)
    requires ProcessPage(acc, page, fmt).Some?
    ensures Names(ProcessPage(acc, page, fmt).value) == Names(acc) + PageNames(Some(page), fmt)
  {
    var htmlCards := TagParser.ParseCards(page.events).value;
    var added := JsonCards(page, fmt) + htmlCards + RegexFallback(page.nameMatches);
    assert JsonCards(page, fmt) + htmlCards + RegexFallback(page.nameMatches) == added;
    NamesAppend(acc, added);
  }

  /** The URL loop: a failed fetch is skipped, and the loop stops as soon as
      the running list holds 30 cards. */
  function Collect(acc: seq<Card>, pages: seq<Option<Page>>, fmt: JsonExtract.Formatters): (r: Option<seq<Card>>)
    requires Clean(acc)
    ensures r.Some? ==> Clean(r.value) && IsPrefix(acc, r.value)
    decreases |pages|
  {
    if |pages| == 0 then Some(acc)
    else if pages[0].None? then Collect(acc, pages[1..], fmt)
    else
      match ProcessPage(acc, pages[0].value, fmt)
      case None => None
      case Some(next) =>
        if |next| >= EnoughCards then Some(next)
        else
          var r := Collect(next, pages[1..], fmt);
          if r.Some? then PrefixTransitive(acc, next, r.value); r else r
  }

  /** `all_cards[:100]`. */
  function Capped(cards: seq<Card>): (r: seq<Card>)
    ensures |r| == Min(|cards|, MaxSaved) && IsPrefix(r, cards)
  {
    if |cards| <= MaxSaved then cards else cards[..MaxSaved]
  }

  /** How a run ends: an uncaught exception, or the saved records (an empty
      list is the "no cards found" report). */
  datatype Outcome = Aborted | Saved(cards: seq<Card>)

  /** `main` over the fetch results of its search URLs. */
  function Run(pages: seq<Option<Page>>, fmt: JsonExtract.Formatters): (r: Outcome)
    ensures r.Aborted? <==> Collect([], pages, fmt).None?
    ensures r.Saved? ==> Clean(r.cards) && |r.cards| <= MaxSaved
    ensures r.Saved? ==> var all := Collect([], pages, fmt).value;
                         IsPrefix(r.cards, all) && |r.cards| == Min(|all|, MaxSaved)
  {
    match Collect([], pages, fmt)
    case None => Aborted
    case Some(all) => Saved(Capped(all))
  }

  /** The loop keeps only names found on the pages, and all of them unless it
      stopped at 30 cards. */
  lemma {:induction false} CollectNames(acc: seq<Card>, pages: seq<Option<Page>>, fmt: JsonExtract.Formatters)
    requires Clean(acc)
    ensures Collect(acc, pages, fmt).Some? ==>
              Names(Collect(acc, pages, fmt).value) <= Names(acc) + FoundNames(pages, fmt)
    ensures Collect(acc, pages, fmt).Some? && |Collect(acc, pages, fmt).value| < EnoughCards ==>
              Names(Collect(acc, pages, fmt).value) == Names(acc) + FoundNames(pages, fmt)
    decreases |pages|
  {
    if |pages| == 0 {
    } else if pages[0].None? {
      FoundNamesSplit(pages, fmt);
      CollectNames(acc, pages[1..], fmt);
    } else {
      var p := ProcessPage(acc, pages[0].value, fmt);
      if p.Some? {
        var next := p.value;
        FoundNamesSplit(pages, fmt);
        PageAddsItsNames(acc, pages[0].value, fmt);
        if |next| < EnoughCards {
          CollectNames(next, pages[1..], fmt);
        }
      }
    }
  }

  /** A saved list holds only names found on the pages, and every such name
      when the loop did not stop at 30 cards. */
  lemma RunNames(pages: seq<Option<Page>>, fmt: JsonExtract.Formatters)
    ensures Run(pages, fmt).Saved? ==> Names(Run(pages, fmt).cards) <= FoundNames(pages, fmt)
    ensures Run(pages, fmt).Saved? && |Run(pages, fmt).cards| < EnoughCards ==>
              Names(Run(pages, fmt).cards) == FoundNames(pages, fmt)
  {
    CollectNames([], pages, fmt);
    assert Names([]) == {};
    if Run(pages, fmt).Saved? {
      NamesOfPrefix(Run(pages, fmt).cards, Collect([], pages, fmt).value);
    }
  }

  /** The search URLs, in the order they are fetched. */
  const SearchUrls: seq<string> := [
    "https://www.tcgplayer.com/search/all/product?q=magic",
    "https://www.tcgplayer.com/search/all/product?q=magic+the+gathering",
    "https://www.tcgplayer.com/search/all/product?q=pokemon",
    "https://www.tcgplayer.com/search/magic/product?q=island"]

  /** What fetching each search URL in turn gives. */
  function Fetched(fetch: string -> Option<Page>): (r: seq<Option<Page>>)
    ensures |r| == |SearchUrls|
    ensures forall k :: 0 <= k < |SearchUrls| ==> r[k] == fetch(SearchUrls[k])
  {
    seq(|SearchUrls|, i requires 0 <= i < |SearchUrls| => fetch(SearchUrls[i]))
  }

  /** A run aborts only on a fetched page whose tag events raise. */
  lemma RunAbortsOnRaise(pages: seq<Option<Page>>, fmt: JsonExtract.Formatters)
    requires Run(pages, fmt).Aborted?
    ensures exists i :: 0 <= i < |pages| && pages[i].Some? && TagParser.ParseCards(pages[i].value.events).None?
  {
    CollectAbortsOnRaise([], pages, fmt);
  }

  /** A raising first page aborts the run. */
  lemma FirstPageRaiseAborts(pages: seq<Option<Page>>, fmt: JsonExtract.Formatters)
    requires |pages| > 0 && pages[0].Some? && TagParser.ParseCards(pages[0].value.events).None?
    ensures Run(pages, fmt) == Aborted
  {
    assert pages == [pages[0]] + pages[1..];
    RaiseAbortsHere([], pages[0].value, pages[1..], fmt);
  }

  /** `main`: the run aborts only on a fetched page whose tag events raise,
      and always when the first page is one. */
  lemma MainAborts(fetch: string -> Option<Page>, fmt: JsonExtract.Formatters)
    ensures Run(Fetched(fetch), fmt).Aborted? ==>
              exists k :: 0 <= k < |SearchUrls| && fetch(SearchUrls[k]).Some?
                           && TagParser.ParseCards(fetch(SearchUrls[k]).value.events).None?
    ensures fetch(SearchUrls[0]).Some? && TagParser.ParseCards(fetch(SearchUrls[0]).value.events).None? ==>
              Run(Fetched(fetch), fmt) == Aborted
  {
    var pages := Fetched(fetch);
    if pages[0].Some? && TagParser.ParseCards(pages[0].value.events).None? {
      FirstPageRaiseAborts(pages, fmt);
    }
    if Run(pages, fmt).Aborted? {
      RunAbortsOnRaise(pages, fmt);
      var i :| 0 <= i < |pages| && pages[i].Some? && TagParser.ParseCards(pages[i].value.events).None?;
      assert pages[i] == fetch(SearchUrls[i]);
    }
  }

  /** `main` saves only names found on a fetched page, and every one of them
      unless the loop stopped at 30 cards. */
  lemma MainNames(fetch: string -> Option<Page>, fmt: JsonExtract.Formatters)
    ensures var r := Run(Fetched(fetch), fmt);
            r.Saved? ==> forall n :: n in Names(r.cards) ==>
              exists k :: 0 <= k < |SearchUrls| && n in PageNames(fetch(SearchUrls[k]), fmt)
    ensures var r := Run(Fetched(fetch), fmt);
            r.Saved? && |r.cards| < EnoughCards ==>
              forall k, n :: 0 <= k < |SearchUrls| && n in PageNames(fetch(SearchUrls[k]), fmt) ==> n in Names(r.cards)
  {
    var pages := Fetched(fetch);
    RunNames(pages, fmt);
    FoundNamesMembers(pages, fmt);
    var r := Run(pages, fmt);
    if r.Saved? {
      forall n | n in Names(r.cards)
        ensures exists k :: 0 <= k < |SearchUrls| && n in PageNames(fetch(SearchUrls[k]), fmt)
      {
        var i :| 0 <= i < |pages| && n in PageNames(pages[i], fmt);
        assert pages[i] == fetch(SearchUrls[i]);
      }
      if |r.cards| < EnoughCards {
        forall k, n | 0 <= k < |SearchUrls| && n in PageNames(fetch(SearchUrls[k]), fmt)
          ensures n in Names(r.cards)
        {
          assert pages[k] == fetch(SearchUrls[k]);
        }
      }
    }
  }

  /** `main` with the fetch as a parameter: None for a failed or empty fetch. */
  function Main(fetch: string -> Option<Page>, fmt: JsonExtract.Formatters): (r: Outcome)
    ensures r.Saved? ==> Clean(r.cards) && |r.cards| <= MaxSaved
    ensures (forall k :: 0 <= k < |SearchUrls| ==> fetch(SearchUrls[k]).None?) ==> r == Saved([])
    // the run aborts only on a fetched page whose tag events raise, and always when the first page is one
    ensures r.Aborted? ==>
              exists k :: 0 <= k < |SearchUrls| && fetch(SearchUrls[k]).Some?
                          && TagParser.ParseCards(fetch(SearchUrls[k]).value.events).None?
    ensures fetch(SearchUrls[0]).Some? && TagParser.ParseCards(fetch(SearchUrls[0]).value.events).None? ==>
              r == Aborted
    // every saved name was found on a fetched page, and every found name is
    // saved unless the loop stopped at 30 cards
    ensures r.Saved? ==> forall n :: n in Names(r.cards) ==>
              exists k :: 0 <= k < |SearchUrls| && n in PageNames(fetch(SearchUrls[k]), fmt)
    ensures r.Saved? && |r.cards| < EnoughCards ==>
              forall k, n :: 0 <= k < |SearchUrls| && n in PageNames(fetch(SearchUrls[k]), fmt) ==> n in Names(r.cards)
  {
    var pages := Fetched(fetch);
    MainAborts(fetch, fmt);
    MainNames(fetch, fmt);
    if forall k :: 0 <= k < |pages| ==> pages[k].None? then
      NothingFetchedNothingSaved(pages, fmt);
      Run(pages, fmt)
    else
      Run(pages, fmt)
  }

  /** The URL loop written as the source writes it. */
  method Scrape(pages: seq<Option<Page>>, fmt: JsonExtract.Formatters) returns (out: Outcome)
    ensures out == Run(pages, fmt)
  {
    var all: seq<Card> := [];
    var i := 0;
    while i < |pages|
      invariant 0 <= i <= |pages|
      invariant Clean(all)
      invariant Collect([], pages, fmt) == Collect(all, pages[i..], fmt)
    {
      assert pages[i..][1..] == pages[i + 1..];
      if pages[i].None? {
        i := i + 1;
        continue;
      }
      var page := pages[i].value;
      var htmlCards := TagParser.ParseCards(page.events);
      if htmlCards.None? {
        return Aborted;
      }
      var added := JsonCards(page, fmt) + htmlCards.value + RegexFallback(page.nameMatches);
      all := DedupLoop(all + added);
      if |all| >= EnoughCards {
        return Saved(Capped(all));
      }
      i := i + 1;
    }
    out := Saved(Capped(all));
  }

  // ---------------------------------------------------------------------
  // Properties of the run

  /** With every fetch failed the run completes and saves nothing. */
  lemma {:induction false} AllFetchesFailed(acc: seq<Card>, pages: seq<Option<Page>>, fmt: JsonExtract.Formatters)
    requires Clean(acc)
    requires forall k :: 0 <= k < |pages| ==> pages[k].None?
    ensures Collect(acc, pages, fmt) == Some(acc)
    decreases |pages|
  {
    if |pages| > 0 {
      assert forall k :: 0 <= k < |pages[1..]| ==> pages[1..][k] == pages[k + 1];
      AllFetchesFailed(acc, pages[1..], fmt);
    }
  }

  /** No page fetched, no records: the report states zero cards. */
  lemma NothingFetchedNothingSaved(pages: seq<Option<Page>>, fmt: JsonExtract.Formatters)
    requires forall k :: 0 <= k < |pages| ==> pages[k].None?
    ensures Run(pages, fmt) == Saved([])
  {
    AllFetchesFailed([], pages, fmt);
  }

  /** The run aborts only on a fetched page whose tag events raise. */
  lemma {:induction false} CollectAbortsOnRaise(acc: seq<Card>, pages: seq<Option<Page>>, fmt: JsonExtract.Formatters)
    requires Clean(acc)
    requires Collect(acc, pages, fmt).None?
    ensures exists i :: 0 <= i < |pages| && pages[i].Some? && TagParser.ParseCards(pages[i].value.events).None?
    decreases |pages|
  {
    var rest := pages[1..];
    if pages[0].None? {
      CollectAbortsOnRaise(acc, rest, fmt);
      var i :| 0 <= i < |rest| && rest[i].Some? && TagParser.ParseCards(rest[i].value.events).None?;
      assert pages[i + 1] == rest[i];
    } else if ProcessPage(acc, pages[0].value, fmt).Some? {
      var next := ProcessPage(acc, pages[0].value, fmt).value;
      CollectAbortsOnRaise(next, rest, fmt);
      var i :| 0 <= i < |rest| && rest[i].Some? && TagParser.ParseCards(rest[i].value.events).None?;
      assert pages[i + 1] == rest[i];
    }
  }

  /** A fetched page whose tag events raise aborts the run when it comes next. */
  lemma RaiseAbortsHere(acc: seq<Card>, page: Page, post: seq<Option<Page>>, fmt: JsonExtract.Formatters)
    requires Clean(acc)
    requires TagParser.ParseCards(page.events).None?
    ensures Collect(acc, [Some(page)] + post, fmt).None?
  {
    assert ([Some(page)] + post)[0] == Some(page);
  }

  /** A fetched page whose tag events raise aborts the run when the loop
      reaches it, that is, when fewer than 30 cards were collected before it. */
  lemma RaiseAborts(acc: seq<Card>, pre: seq<Option<Page>>, page: Page, post: seq<Option<Page>>,
                    fmt: JsonExtract.Formatters)
    requires Clean(acc)
    requires Collect(acc, pre, fmt).Some? && |Collect(acc, pre, fmt).value| < EnoughCards
    requires TagParser.ParseCards(page.events).None?
    ensures Collect(acc, pre + [Some(page)] + post, fmt).None?
  {
    CollectSplit(acc, pre, [Some(page)] + post, fmt);
    assert pre + [Some(page)] + post == pre + ([Some(page)] + post);
    RaiseAbortsHere(Collect(acc, pre, fmt).value, page, post, fmt);
  }

  /** Once 30 cards are collected the remaining pages are never consulted. */
  lemma {:induction false} EnoughStopsTheLoop(acc: seq<Card>, pre: seq<Option<Page>>, post: seq<Option<Page>>,
                                              fmt: JsonExtract.Formatters)
    requires Clean(acc) && |acc| < EnoughCards
    requires Collect(acc, pre, fmt).Some? && |Collect(acc, pre, fmt).value| >= EnoughCards
    ensures Collect(acc, pre + post, fmt) == Collect(acc, pre, fmt)
    decreases |pre|
  {
    if |pre| == 0 {
      assert false;
    } else {
      assert (pre + post)[0] == pre[0];
      assert (pre + post)[1..] == pre[1..] + post;
      if pre[0].None? {
        EnoughStopsTheLoop(acc, pre[1..], post, fmt);
      } else {
        var next := ProcessPage(acc, pre[0].value, fmt);
        if next.Some? && |next.value| < EnoughCards {
          EnoughStopsTheLoop(next.value, pre[1..], post, fmt);
        }
      }
    }
  }

  /** The running list only grows across pages: every card kept after some
      pages is still there, at the same place, after any later pages. */
  lemma RunningListGrows(acc: seq<Card>, pre: seq<Option<Page>>, post: seq<Option<Page>>,
                         fmt: JsonExtract.Formatters)
    requires Clean(acc)
    requires Collect(acc, pre, fmt).Some? && Collect(acc, pre + post, fmt).Some?
    ensures IsPrefix(Collect(acc, pre, fmt).value, Collect(acc, pre + post, fmt).value)
  {
    CollectSplit(acc, pre, post, fmt);
  }

  /** Running the loop over two page lists in a row: either it stopped
      within the first list, or it carries on from where the first list left it. */
  lemma {:induction false} CollectSplit(acc: seq<Card>, pre: seq<Option<Page>>, post: seq<Option<Page>>,
                                        fmt: JsonExtract.Formatters)
    requires Clean(acc)
    requires Collect(acc, pre, fmt).Some?
    ensures Collect(acc, pre + post, fmt) == Collect(acc, pre, fmt)
            || Collect(acc, pre + post, fmt) == Collect(Collect(acc, pre, fmt).value, post, fmt)
    ensures |Collect(acc, pre, fmt).value| < EnoughCards
            ==> Collect(acc, pre + post, fmt) == Collect(Collect(acc, pre, fmt).value, post, fmt)
    decreases |pre|
  {
    if |pre| == 0 {
      assert pre + post == post;
    } else {
      assert (pre + post)[0] == pre[0];
      assert (pre + post)[1..] == pre[1..] + post;
      if pre[0].None? {
        CollectSplit(acc, pre[1..], post, fmt);
      } else {
        var next := ProcessPage(acc, pre[0].value, fmt).value;
        if |next| < EnoughCards {
          CollectSplit(next, pre[1..], post, fmt);
        }
      }
    }
  }
}

=== FILE: cards.dfy ===
/** The card record every extractor produces: a dictionary with the optional
    keys `name`, `price`, `price_raw` and `url`, all text. */
module Cards {
  import opened Wrappers

  datatype Card = Card(name: Option<string>, price: Option<string>, priceRaw: Option<string>, url: Option<string>)

  /** The empty dictionary `{}`. */
  const EmptyCard: Card := Card(None, None, None, None)

  /** The origin prefixed to site-relative links. */
  const BaseOrigin: string := "https://www.tcgplayer.com"

  /** `card.get('name', '')`. */
  function NameOf(c: Card): string {
    if c.name.Some? then c.name.value else ""
  }

  /** A dictionary is truthy when it holds at least one key. */
  predicate IsEmpty(c: Card) {
    c.name.None? && c.price.None? && c.priceRaw.None? && c.url.None?
  }
}

=== FILE: json_extract.dfy ===
/** The embedded-JSON strategy: choosing the product list among the parsed
    candidates (`extract_json_data` after `json.loads`) and turning its
    dictionary items into cards (`extract_cards_from_json`). The regular
    expressions that find the candidates and the JSON decoder are not part of
    this model: their results arrive as a sequence of optional parsed values. */
module JsonExtract {
  import opened Wrappers
  import opened Text
  import opened Cards

  /** A value as `json.loads` returns it. Integers and floats are both numbers. */
  datatype Json =
    | JNull
    | JBool(b: bool)
    | JNum(n: real)
    | JStr(s: string)
    | JArr(items: seq<Json>)
    | JObj(fields: map<string, Json>)

  /** Python truthiness of a decoded value. */
  predicate Truthy(v: Json) {
    match v
    case JNull => false
    case JBool(b) => b
    case JNum(n) => n != 0.0
    case JStr(s) => |s| > 0
    case JArr(items) => |items| > 0
    case JObj(fields) => |fields| > 0
  }

  /** The two formatting primitives the extractor borrows from Python:
      `f"{x:.2f}"` on a number and `str(v)` on a value that is not a string. */
  datatype Formatters = Formatters(twoDecimals: real -> string, show: Json -> string)

  /** `str(v)`: a string is itself. */
  function Str(v: Json, fmt: Formatters): string {
    if v.JStr? then v.s else fmt.show(v)
  }

  /** `key in obj and accept(obj[key])`. */
  predicate Hit(obj: map<string, Json>, key: string, accept: Json -> bool) {
    key in obj && accept(obj[key])
  }

  /** The loop `for key in keys: if key in obj and accept(obj[key]): ... break`:
      the index of the first key that is present with an accepted value. */
  function FirstKey(obj: map<string, Json>, keys: seq<string>, accept: Json -> bool): (r: Option<nat>)
    ensures r.Some? ==> r.value < |keys| && Hit(obj, keys[r.value], accept)
    ensures r.Some? ==> forall j :: 0 <= j < r.value ==> !Hit(obj, keys[j], accept)
    ensures r.None? ==> forall j :: 0 <= j < |keys| ==> !Hit(obj, keys[j], accept)
    decreases |keys|
  {
    if |keys| == 0 then None
    else if Hit(obj, keys[0], accept) then Some(0)
    else
      match FirstKey(obj, keys[1..], accept)
      case None => None
      case Some(i) => Some(i + 1)
  }

  predicate IsList(v: Json) { v.JArr? }

  const ListKeys: seq<string> := ["products", "items", "results", "data"]

  /** What one parsed candidate contributes: for a dictionary, the list under
      the first of `products`, `items`, `results`, `data` that holds a list;
      a list itself; None (move on) for anything else. */
  function ListOf(parsed: Json): (r: Option<seq<Json>>)
    ensures parsed.JArr? ==> r == Some(parsed.items)
    ensures !parsed.JArr? && !parsed.JObj? ==> r.None?
    ensures parsed.JObj? && r.Some? ==>
              exists i :: 0 <= i < |ListKeys| && Hit(parsed.fields, ListKeys[i], IsList)
                && parsed.fields[ListKeys[i]] == JArr(r.value)
                && forall j :: 0 <= j < i ==> !Hit(parsed.fields, ListKeys[j], IsList)
    ensures parsed.JObj? && r.None? ==>
              forall i :: 0 <= i < |ListKeys| ==> !Hit(parsed.fields, ListKeys[i], IsList)
  {
    match parsed
    case JObj(fields) =>
      (match FirstKey(fields, ListKeys, IsList)
       case None => None
       case Some(i) => Some(fields[ListKeys[i]].items))
    case JArr(items) => Some(items)
    case _ => None
  }

  /** A candidate match: None when `json.loads` raised JSONDecodeError. */
  function Yield(candidate: Option<Json>): Option<seq<Json>> {
    if candidate.None? then None else ListOf(candidate.value)
  }

  /** `extract_json_data` after decoding: the candidates in pattern order, then
      match order; the first one that yields a list wins, failures are skipped,
      and None when no candidate qualifies. */
  function ExtractJsonData(candidates: seq<Option<Json>>): (r: Option<seq<Json>>)
    ensures r.Some? ==> exists i :: 0 <= i < |candidates| && Yield(candidates[i]) == r
                          && forall j :: 0 <= j < i ==> Yield(candidates[j]).None?
    ensures r.None? ==> forall i :: 0 <= i < |candidates| ==> Yield(candidates[i]).None?
    decreases |candidates|
  {
    if |candidates| == 0 then None
    else if Yield(candidates[0]).Some? then Yield(candidates[0])
    else
      var r := ExtractJsonData(candidates[1..]);
      assert forall i :: 1 <= i < |candidates| ==> candidates[i] == candidates[1..][i - 1];
      r
  }

  const NameKeys: seq<string> := ["name", "title", "productName", "displayName"]
  const PriceKeys: seq<string> := ["price", "marketPrice", "lowPrice", "avgPrice", "amount"]
  const UrlKeys: seq<string> := ["url", "productUrl", "link", "detailUrl"]

  /** The name: `str` of the first name key whose value is truthy. */
  function NameField(obj: map<string, Json>, fmt: Formatters): (r: Option<string>)
    ensures r.Some? <==> exists j :: 0 <= j < |NameKeys| && Hit(obj, NameKeys[j], Truthy)
    ensures r.Some? ==>
              exists j :: (0 <= j < |NameKeys| && Hit(obj, NameKeys[j], Truthy)
                           && r.value == Str(obj[NameKeys[j]], fmt)
                           && forall m :: 0 <= m < j ==> !Hit(obj, NameKeys[m], Truthy))
  {
    match FirstKey(obj, NameKeys, Truthy)
    case None => None
    case Some(i) => Some(Str(obj[NameKeys[i]], fmt))
  }

  /** Any value stops the price loop: only the key's presence matters. */
  const AnyValue: Json -> bool := v => true

  /** The price text a value gives: a number (a bool is an int in Python) as
      `$` and two decimals, a string verbatim, nothing for anything else. */
  function PriceText(v: Json, fmt: Formatters): (r: Option<string>)
    ensures (v.JNum? || v.JBool? || v.JStr?) <==> r.Some?
    ensures r.Some? && !v.JStr? ==> StartsWith(r.value, "$")
    ensures v.JNum? ==> r.Some? && r.value[1..] == fmt.twoDecimals(v.n)
    ensures v.JStr? ==> r == Some(v.s)
  {
    match v
    case JBool(b) => Some("$" + fmt.twoDecimals(if b then 1.0 else 0.0))
    case JNum(n) => Some("$" + fmt.twoDecimals(n))
    case JStr(s) => Some(s)
    case _ => None
  }

  /** A boolean is priced as the number it is in Python: 1 or 0. */
  lemma BoolPricedAsNumber(b: bool, fmt: Formatters)
    ensures PriceText(JBool(b), fmt) == PriceText(JNum(if b then 1.0 else 0.0), fmt)
  {
  }

  /** The price: the first price key that is PRESENT ends the search,
      whether or not its value gives a price. */
  function PriceField(obj: map<string, Json>, fmt: Formatters): (r: Option<string>)
    ensures (forall j :: 0 <= j < |PriceKeys| ==> PriceKeys[j] !in obj) ==> r.None?
    ensures r.Some? ==>
              (StartsWith(r.value, "$")
               || exists j :: 0 <= j < |PriceKeys| && PriceKeys[j] in obj && obj[PriceKeys[j]] == JStr(r.value))
  {
    match FirstKey(obj, PriceKeys, AnyValue)
    case None => None
    case Some(i) =>
      var r := PriceText(obj[PriceKeys[i]], fmt);
      assert r.Some? && !obj[PriceKeys[i]].JStr? ==> r.value[..1] == "$";
      r
  }

  /** Links that do not start with `http` are prefixed with the site origin. */
  function Absolutize(url: string): (r: string)
    ensures StartsWith(r, "http")
    ensures StartsWith(url, "http") ==> r == url
    ensures !StartsWith(url, "http") ==> r == BaseOrigin + url
  {
    if StartsWith(url, "http") then url
    else
      assert (BaseOrigin + url)[..4] == "http";
      BaseOrigin + url
  }

  /** The link: `str` of the first truthy link key, made absolute. */
  function UrlField(obj: map<string, Json>, fmt: Formatters): (r: Option<string>)
    ensures r.Some? <==> exists j :: 0 <= j < |UrlKeys| && Hit(obj, UrlKeys[j], Truthy)
    ensures r.Some? ==>
              exists j :: (0 <= j < |UrlKeys| && Hit(obj, UrlKeys[j], Truthy)
                           && r.value == Absolutize(Str(obj[UrlKeys[j]], fmt))
                           && forall m :: 0 <= m < j ==> !Hit(obj, UrlKeys[m], Truthy))
    ensures r.Some? ==> StartsWith(r.value, "http")
  {
    match FirstKey(obj, UrlKeys, Truthy)
    case None => None
    case Some(i) => Some(Absolutize(Str(obj[UrlKeys[i]], fmt)))
  }

  /** One item of the list: a card exactly when it is a dictionary with a name. */
  function CardOf(item: Json, fmt: Formatters): (r: Option<Card>)
    ensures r.Some? <==> item.JObj? && NameField(item.fields, fmt).Some?
    ensures r.Some? ==> r.value.name.Some? && r.value.priceRaw.None?
    // the fields are read independently from the item
    ensures r.Some? ==> r.value == Card(NameField(item.fields, fmt), PriceField(item.fields, fmt), None,
                                        UrlField(item.fields, fmt))
    ensures r.Some? && r.value.url.Some? ==> StartsWith(r.value.url.value, "http")
  {
    if !item.JObj? then None
    else
      match NameField(item.fields, fmt)
      case None => None
      case Some(name) => Some(Card(Some(name), PriceField(item.fields, fmt), None, UrlField(item.fields, fmt)))
  }

  /** Number of dictionary items. */
  function DictCount(items: seq<Json>): nat
    decreases |items|
  {
    if |items| == 0 then 0 else (if items[0].JObj? then 1 else 0) + DictCount(items[1..])
  }

  /** The loop over the list, in order. */
  function CardsOf(items: seq<Json>, fmt: Formatters): (r: seq<Card>)
    ensures |r| <= DictCount(items)
    ensures forall k :: 0 <= k < |r| ==> r[k].name.Some? && r[k].priceRaw.None?
    ensures forall k :: 0 <= k < |r| && r[k].url.Some? ==> StartsWith(r[k].url.value, "http")
    decreases |items|
  {
    if |items| == 0 then []
    else
      var rest := CardsOf(items[1..], fmt);
      match CardOf(items[0], fmt)
      case None => rest
      case Some(c) => [c] + rest
  }

  /** `extract_cards_from_json`: no cards unless the input is a list. */
  function ExtractCards(data: Json, fmt: Formatters): (r: seq<Card>)
    ensures !data.JArr? ==> r == []
    ensures data.JArr? ==> |r| <= DictCount(data.items)
    ensures forall k :: 0 <= k < |r| ==> r[k].name.Some? && r[k].priceRaw.None?
    ensures forall k :: 0 <= k < |r| && r[k].url.Some? ==> StartsWith(r[k].url.value, "http")
  {
    if data.JArr? then CardsOf(data.items, fmt) else []
  }

  /** Items are handled independently and in order: the cards of a
      concatenation are the concatenation of the cards. */
  lemma {:induction false} CardsOfAppend(a: seq<Json>, b: seq<Json>, fmt: Formatters)
    ensures CardsOf(a + b, fmt) == CardsOf(a, fmt) + CardsOf(b, fmt)
    decreases |a|
  {
    if |a| == 0 {
      assert a + b == b;
    } else {
      assert (a + b)[0] == a[0];
      assert (a + b)[1..] == a[1..] + b;
      CardsOfAppend(a[1..], b, fmt);
    }
  }

  /** Some item of the list gives the card `c`. */
  predicate GivenBy(items: seq<Json>, fmt: Formatters, c: Card) {
    exists i :: 0 <= i < |items| && CardOf(items[i], fmt) == Some(c)
  }

  /** The cards of a product list are exactly the cards its items give. */
  lemma ExtractCardsMembers(items: seq<Json>, fmt: Formatters)
    ensures forall c :: c in ExtractCards(JArr(items), fmt) <==> GivenBy(items, fmt, c)
  {
    forall c {
      CardsOfMembers(items, fmt, c);
    }
  }

  /** A card is in the output exactly when some item gives it. */
  lemma {:induction false} CardsOfMembers(items: seq<Json>, fmt: Formatters, c: Card)
    ensures c in CardsOf(items, fmt) <==> GivenBy(items, fmt, c)
    decreases |items|
  {
    if |items| == 0 {
      assert CardsOf(items, fmt) == [];
    } else {
      var rest := items[1..];
      var head := if CardOf(items[0], fmt).Some? then [CardOf(items[0], fmt).value] else [];
      assert CardsOf(items, fmt) == head + CardsOf(rest, fmt);
      CardsOfMembers(rest, fmt, c);
      if c in head {
        assert CardOf(items[0], fmt) == Some(c);
      } else if c in CardsOf(rest, fmt) {
        var i :| 0 <= i < |rest| && CardOf(rest[i], fmt) == Some(c);
        assert items[i + 1] == rest[i];
      }
      if GivenBy(items, fmt, c) {
        var i :| 0 <= i < |items| && CardOf(items[i], fmt) == Some(c);
        if i > 0 {
          assert rest[i - 1] == items[i];
          assert GivenBy(rest, fmt, c);
        } else {
          assert c in head;
        }
      }
    }
  }

  /** The price comes from the first present price key alone: when its value
      is neither a number nor a string there is no price, whatever later keys hold. */
  lemma FirstPresentPriceDecides(obj: map<string, Json>, i: nat, fmt: Formatters)
    requires i < |PriceKeys| && PriceKeys[i] in obj
    requires forall j :: 0 <= j < i ==> PriceKeys[j] !in obj
    ensures PriceField(obj, fmt) == PriceText(obj[PriceKeys[i]], fmt)
  {
    var k := FirstKey(obj, PriceKeys, AnyValue);
    assert Hit(obj, PriceKeys[i], AnyValue);
    assert k.Some? && k.value == i;
  }

  /** An embedded product blob `{"products": [{"name": "Island", "marketPrice": 0.25}]}`. */
  const IslandItem: Json := JObj(map["name" := JStr("Island"), "marketPrice" := JNum(0.25)])
  const IslandBlob: Json := JObj(map["products" := JArr([IslandItem])])

  /** The blob gives one card: the name and the two-decimal dollar price. */
  lemma IslandBlobGivesOneCard(fmt: Formatters)
    ensures ExtractJsonData([Some(IslandBlob)]) == Some([IslandItem])
    ensures ExtractCards(JArr([IslandItem]), fmt) ==
              [Card(Some("Island"), Some("$" + fmt.twoDecimals(0.25)), None, None)]
  {
    var fields := IslandItem.fields;
    assert Hit(IslandBlob.fields, ListKeys[0], IsList);
    assert FirstKey(IslandBlob.fields, ListKeys, IsList) == Some(0);
    assert Hit(fields, NameKeys[0], Truthy);
    assert FirstKey(fields, NameKeys, Truthy) == Some(0);
    assert NameField(fields, fmt) == Some("Island");
    assert PriceKeys[0] !in fields;
    FirstPresentPriceDecides(fields, 1, fmt);
    assert PriceField(fields, fmt) == Some("$" + fmt.twoDecimals(0.25));
    assert forall j :: 0 <= j < |UrlKeys| ==> UrlKeys[j] !in fields;
    assert UrlField(fields, fmt) == None;
    assert CardsOf([IslandItem][1..], fmt) == [];
  }
}

=== FILE: seqs.dfy ===
/** A small fact about sequence indexing, stated once and used where the
    surrounding context is too rich for the solver to find it quickly. */
module Seqs {

  /** Indexing into the tail of a sequence. */
  lemma IndexTail<T>(s: seq<T>, j: int)
    requires 0 <= j < |s| - 1
    ensures s[1..][j] == s[j + 1]
  {
  }
}

=== FILE: tag_parser.dfy ===
/** `SimpleCardParser`: a state machine driven by the start-tag, text and
    end-tag callbacks of an HTML tokenizer. The tokenizer is not part of this
    model: the document arrives as a sequence of events, which the parser folds
    through an immutable state. */
module TagParser {
  import opened Wrappers
  import opened Text
  import opened Cards

  /** An attribute list as the tokenizer hands it over: names with an optional
      value (None for a bare attribute such as `<div class>`). */
  type Attrs = seq<(string, Option<string>)>

  datatype Event =
    | StartTag(tag: string, attrs: Attrs)
    | Data(text: string)
    | EndTag(tag: string)

  datatype ParserState = ParserState(
    cards: seq<Card>,
    current: Card,
    inCard: bool,
    inName: bool,
    inPrice: bool,
    buffer: string)

  const Init: ParserState := ParserState([], EmptyCard, false, false, false, "")

  const CardWords: seq<string> := ["product", "card", "item", "result"]
  const NameWords: seq<string> := ["title", "name", "product", "heading"]
  const PriceWords: seq<string> := ["price", "cost", "amount", "money"]
  const NameTags: seq<string> := ["h2", "h3", "h4", "a", "span"]
  const PriceTags: seq<string> := ["span", "div", "p"]

  /** A lookup in `dict(attrs)`. */
  datatype AttrValue = Absent | Bare | Value(s: string)

  /** Position of the LAST pair named `key`, or -1 if there is none. */
  function LastIndex(attrs: Attrs, key: string): (r: int)
    ensures -1 <= r < |attrs|
    ensures r >= 0 ==> attrs[r].0 == key
    ensures forall m :: r < m < |attrs| ==> attrs[m].0 != key
    decreases |attrs|
  {
    if |attrs| == 0 then -1
    else if attrs[|attrs| - 1].0 == key then |attrs| - 1
    else LastIndex(attrs[..|attrs| - 1], key)
  }

  /** `dict(attrs).get(key)`: the value of the last pair named `key`, since
      building a dictionary lets later pairs overwrite earlier ones. */
  function Lookup(attrs: Attrs, key: string): AttrValue {
    var k := LastIndex(attrs, key);
    if k < 0 then Absent
    else if attrs[k].1.Some? then Value(attrs[k].1.value)
    else Bare
  }

  /** `attrs_dict.get('class', '').lower()`; None when the class attribute is
      bare, because calling `.lower()` on None raises AttributeError. */
  function Classes(attrs: Attrs): (r: Option<string>)
    ensures r.None? <==> Lookup(attrs, "class").Bare?
    ensures Lookup(attrs, "class").Absent? ==> r == Some("")
    ensures Lookup(attrs, "class").Value? ==> r == Some(Lower(Lookup(attrs, "class").s))
  {
    match Lookup(attrs, "class")
    case Absent => Some("")
    case Bare => None
    case Value(s) => Some(Lower(s))
  }

  /** A `/`-prefixed link is made absolute on the site; anything else is kept
      verbatim. The link always survives as the tail of the result. */
  function ResolveHref(href: string): (r: string)
    ensures |href| <= |r| && r[|r| - |href|..] == href
    ensures StartsWith(href, "/") ==> StartsWith(r, BaseOrigin + "/") && |r| == |BaseOrigin| + |href|
    ensures !StartsWith(href, "/") ==> r == href
  {
    if StartsWith(href, "/") then
      assert (BaseOrigin + href)[..|BaseOrigin| + 1] == BaseOrigin + "/";
      BaseOrigin + href
    else href
  }

  /** Resolving a resolved link changes nothing: the site origin does not start with `/`. */
  lemma ResolveHrefIdempotent(href: string)
    ensures ResolveHref(ResolveHref(href)) == ResolveHref(href)
  {
    var r := ResolveHref(href);
    if StartsWith(href, "/") {
      assert r[0] == BaseOrigin[0] == 'h';
    }
  }

  /** The start tag opens a card: a `div` whose lower-cased class names a
      product, card, item or result. */
  predicate OpensCard(tag: string, attrs: Attrs) {
    tag == "div" && Classes(attrs).Some? && ContainsAny(Classes(attrs).value, CardWords)
  }

  /** `handle_starttag`. None means the handler raised AttributeError: a bare
      class attribute on any tag, or a bare href on a card-opening `div`. */
  function OnStartTag(st: ParserState, tag: string, attrs: Attrs): (r: Option<ParserState>)
    ensures r.None? <==> Lookup(attrs, "class").Bare? || (OpensCard(tag, attrs) && Lookup(attrs, "href").Bare?)
    // the collected cards, the text buffer and in_price-clearing never happen here
    ensures r.Some? ==> r.value.cards == st.cards && r.value.buffer == st.buffer
    ensures r.Some? ==> (st.inName ==> r.value.inName) && (st.inPrice ==> r.value.inPrice)
    // opening a card always resets the record, even inside an open card
    ensures r.Some? && OpensCard(tag, attrs) ==>
              r.value.inCard && r.value.inName == st.inName && r.value.inPrice == st.inPrice
              && r.value.current.name.None? && r.value.current.price.None? && r.value.current.priceRaw.None?
              && (match Lookup(attrs, "href")
                  case Value(h) => r.value.current.url == Some(ResolveHref(h))
                  case _ => r.value.current.url.None?)
    ensures r.Some? && !OpensCard(tag, attrs) ==> r.value.inCard == st.inCard && r.value.current == st.current
    // only a name tag inside a card can raise in_name
    ensures r.Some? && r.value.inName && !st.inName ==>
              st.inCard && tag in NameTags && ContainsAny(Classes(attrs).value, NameWords)
    // only a div or p inside a card can raise in_price: a span always takes the name branch
    ensures r.Some? && r.value.inPrice && !st.inPrice ==>
              st.inCard && (tag == "div" || tag == "p") && ContainsAny(Classes(attrs).value, PriceWords)
    ensures tag == "span" && r.Some? ==> r.value.inPrice == st.inPrice
    // and they do raise the flags
    ensures (r.Some? && !OpensCard(tag, attrs) && st.inCard && tag in NameTags
             && ContainsAny(Classes(attrs).value, NameWords)) ==> r.value.inName
    ensures (r.Some? && !OpensCard(tag, attrs) && st.inCard && (tag == "div" || tag == "p")
             && ContainsAny(Classes(attrs).value, PriceWords)) ==> r.value.inPrice
  {
    match Classes(attrs)
    case None => None
    case Some(classes) =>
      if tag == "div" && ContainsAny(classes, CardWords) then
        match Lookup(attrs, "href")
        case Absent => Some(st.(inCard := true, current := EmptyCard))
        case Bare => None
        case Value(h) => Some(st.(inCard := true, current := EmptyCard.(url := Some(ResolveHref(h)))))
      else if st.inCard && tag in NameTags then
        if ContainsAny(classes, NameWords) then Some(st.(inName := true)) else Some(st)
      else if st.inCard && tag in PriceTags then
        if ContainsAny(classes, PriceWords) then Some(st.(inPrice := true)) else Some(st)
      else Some(st)
  }

  /** Text that looks like a price: it contains `$`, or `usd` or `price` in any case. */
  predicate PriceLike(text: string) {
    Contains(text, "$") || Contains(Lower(text), "usd") || Contains(Lower(text), "price")
  }

  /** `handle_data`. */
  function OnData(st: ParserState, text: string): (r: ParserState)
    ensures r.cards == st.cards && r.inCard == st.inCard && r.inName == st.inName && r.inPrice == st.inPrice
    ensures r.current.name == st.current.name && r.current.url == st.current.url && r.current.price == st.current.price
    // in_name wins over in_price: the text goes to the buffer and the record is untouched
    ensures st.inName ==> r.buffer == st.buffer + text && r.current == st.current
    ensures !st.inName ==> r.buffer == st.buffer
    // price_raw changes only inside a price element, on price-like text, to that text stripped
    ensures r.current.priceRaw != st.current.priceRaw ==> !st.inName && st.inPrice && PriceLike(text)
    ensures !st.inName && st.inPrice && PriceLike(text) ==> r.current.priceRaw == Some(Strip(text))
  {
    if st.inName then st.(buffer := st.buffer + text)
    else if st.inPrice then
      if PriceLike(text) then st.(current := st.current.(priceRaw := Some(Strip(text)))) else st
    else st
  }

  /** `handle_endtag`. */
  function OnEndTag(st: ParserState, tag: string): (r: ParserState)
    // a record is appended only when a div closes an open card outside a price element
    ensures r.cards != st.cards <==> tag == "div" && st.inCard && !st.inPrice && !IsEmpty(st.current)
    ensures r.cards != st.cards ==> r.cards == st.cards + [st.current] && !r.inCard
    ensures r.current.url == st.current.url && r.current.price == st.current.price
              && r.current.priceRaw == st.current.priceRaw
    // closing a name element stores the stripped buffer if it has text, and always resets it
    ensures tag in NameTags && st.inName ==>
              !r.inName && r.buffer == "" && r.inPrice == st.inPrice && r.inCard == st.inCard
              && r.current.name == (if |Strip(st.buffer)| > 0 then Some(Strip(st.buffer)) else st.current.name)
    ensures !(tag in NameTags && st.inName) ==> r.current == st.current && r.buffer == st.buffer && r.inName == st.inName
    // a div end tag inside a price element clears in_price and leaves the card open
    ensures tag == "div" && st.inPrice ==> !r.inPrice && r.inCard == st.inCard
    ensures !r.inCard ==> !st.inCard || tag == "div"
    // an end tag never opens a card
    ensures r.inCard ==> st.inCard
    // a div outside a price element closes an open card, even an empty one
    ensures tag == "div" && st.inCard && !st.inPrice ==> !r.inCard
    // a span, div or p ends a price element unless it closes a name element first
    ensures tag in PriceTags && st.inPrice && !(tag in NameTags && st.inName) ==> !r.inPrice
    ensures !(tag in PriceTags && st.inPrice && !(tag in NameTags && st.inName)) ==> r.inPrice == st.inPrice
  {
    assert "div" !in NameTags && "div" in PriceTags;
    if tag in NameTags && st.inName then
      var text := Strip(st.buffer);
      st.(current := if |text| > 0 then st.current.(name := Some(text)) else st.current,
          inName := false, buffer := "")
    else if tag in PriceTags && st.inPrice then
      st.(inPrice := false)
    else if tag == "div" && st.inCard then
      assert |st.cards + [st.current]| == |st.cards| + 1;
      st.(cards := if !IsEmpty(st.current) then st.cards + [st.current] else st.cards,
          inCard := false)
    else st
  }

  /** The start tag makes `handle_starttag` raise, whatever the parser state:
      a bare class, or a bare href on a card-opening `div`. */
  predicate Raises(ev: Event) {
    ev.StartTag? && (Lookup(ev.attrs, "class").Bare? || (OpensCard(ev.tag, ev.attrs) && Lookup(ev.attrs, "href").Bare?))
  }

  /** One callback. */
  function Step(st: ParserState, ev: Event): (r: Option<ParserState>)
    ensures r.None? <==> Raises(ev)
  {
    match ev
    case StartTag(tag, attrs) => OnStartTag(st, tag, attrs)
    case Data(text) => Some(OnData(st, text))
    case EndTag(tag) => Some(OnEndTag(st, tag))
  }

  /** `parser.feed(...)`: the callbacks in document order; None when one of
      them raised, which aborts the feed. Which event raises does not depend
      on the state, so a feed fails exactly when the document holds such an event. */
  function Feed(st: ParserState, events: seq<Event>): (r: Option<ParserState>)
    ensures r.None? <==> exists k :: 0 <= k < |events| && Raises(events[k])
    decreases |events|
  {
    if |events| == 0 then Some(st)
    else
      assert forall k :: 1 <= k < |events| ==> events[k] == events[1..][k - 1];
      match Step(st, events[0])
      case None => None
      case Some(next) => Feed(next, events[1..])
  }

  /** `parser.cards` after feeding a whole document to a fresh parser: None
      exactly when a start tag raised; otherwise non-empty records, at most one
      per `</div>`. */
  function ParseCards(events: seq<Event>): (r: Option<seq<Card>>)
    ensures r.None? <==> exists k :: 0 <= k < |events| && Raises(events[k])
    ensures r.Some? ==> |r.value| <= DivEnds(events)
    ensures r.Some? ==> forall k :: 0 <= k < |r.value| ==> !IsEmpty(r.value[k])
  {
    match Feed(Init, events)
    case None => None
    case Some(st) =>
      FeedOnlyAppends(Init, events);
      FeedCardsBoundedByDivEnds(Init, events);
      Some(st.cards)
  }

  /** Number of `</div>` events. */
  function DivEnds(events: seq<Event>): nat
    decreases |events|
  {
    if |events| == 0 then 0
    else (if events[0] == EndTag("div") then 1 else 0) + DivEnds(events[1..])
  }

  /** One callback appends at most the current record, and only a non-empty one. */
  lemma StepAppends(st: ParserState, ev: Event)
    requires Step(st, ev).Some?
    ensures var next := Step(st, ev).value;
            next.cards == st.cards || (next.cards == st.cards + [st.current] && !IsEmpty(st.current))
  {
  }

  /** The card list only grows: earlier cards are never changed or removed,
      and every appended record is non-empty. */
  lemma {:induction false} FeedOnlyAppends(st: ParserState, events: seq<Event>)
    requires Feed(st, events).Some?
    ensures var r := Feed(st, events).value;
            |st.cards| <= |r.cards| && r.cards[..|st.cards|] == st.cards
            && forall k :: |st.cards| <= k < |r.cards| ==> !IsEmpty(r.cards[k])
    decreases |events|
  {
    if |events| > 0 {
      var next := Step(st, events[0]).value;
      StepAppends(st, events[0]);
      FeedOnlyAppends(next, events[1..]);
      var r := Feed(next, events[1..]).value;
      assert Feed(st, events) == Some(r);
      assert r.cards[..|st.cards|] == r.cards[..|next.cards|][..|st.cards|];
      if next.cards != st.cards {
        assert r.cards[|st.cards|] == r.cards[..|next.cards|][|st.cards|];
      }
    }
  }

  /** At most one card per `</div>`. */
  lemma {:induction false} FeedCardsBoundedByDivEnds(st: ParserState, events: seq<Event>)
    requires Feed(st, events).Some?
    ensures |Feed(st, events).value.cards| <= |st.cards| + DivEnds(events)
    decreases |events|
  {
    if |events| > 0 {
      var next := Step(st, events[0]).value;
      FeedCardsBoundedByDivEnds(next, events[1..]);
    }
  }

  /** A document without a card-opening start tag yields no cards. */
  lemma {:induction false} NoContainerNoCards(st: ParserState, events: seq<Event>)
    requires !st.inCard
    requires forall k :: 0 <= k < |events| && events[k].StartTag? ==> !OpensCard(events[k].tag, events[k].attrs)
    requires Feed(st, events).Some?
    ensures Feed(st, events).value.cards == st.cards
    ensures !Feed(st, events).value.inCard
    decreases |events|
  {
    if |events| > 0 {
      var next := Step(st, events[0]).value;
      assert !next.inCard && next.cards == st.cards;
      NoContainerNoCards(next, events[1..]);
    }
  }

  /** Feeding two documents in a row is feeding their concatenation. */
  lemma {:induction false} FeedConcat(st: ParserState, a: seq<Event>, b: seq<Event>)
    ensures Feed(st, a + b) == (match Feed(st, a) case None => None case Some(mid) => Feed(mid, b))
    decreases |a|
  {
    if |a| == 0 {
      assert a + b == b;
    } else {
      assert (a + b)[1..] == a[1..] + b;
      match Step(st, a[0])
      case None =>
      case Some(next) => FeedConcat(next, a[1..], b);
    }
  }

  /** A card listing: a `div` card with a relative link, a product-name
      heading and a price `span`. */
  const ListingOpen: seq<Event> :=
    [StartTag("div", [("class", Some("product-card")), ("href", Some("/card/1"))])]
  const ListingHeading: seq<Event> :=
    [StartTag("h3", [("class", Some("product-name"))]), Data("Black Lotus"), EndTag("h3")]
  const ListingPrice: seq<Event> :=
    [StartTag("span", [("class", Some("price"))]), Data("$5.00"), EndTag("span")]
  const ListingClose: seq<Event> := [EndTag("div")]
  const ListingDocument: seq<Event> := ListingOpen + ListingHeading + ListingPrice + ListingClose

  const ListingUrl: string := "https://www.tcgplayer.com/card/1"
  const ListingOpened: ParserState := Init.(inCard := true, current := EmptyCard.(url := Some(ListingUrl)))
  const ListingInName: ParserState := ListingOpened.(inName := true)
  const ListingNamed: ParserState := ListingOpened.(current := ListingOpened.current.(name := Some("Black Lotus")))
  const ListingClosed: ParserState := ListingNamed.(cards := [ListingNamed.current], inCard := false)

  lemma ListingOpens()
    ensures Feed(Init, ListingOpen) == Some(ListingOpened)
  {
    var attrs := ListingOpen[0].attrs;
    assert LastIndex(attrs, "class") == 0;
    assert LastIndex(attrs, "href") == 1;
    assert Classes(attrs) == Some("product-card");
    assert StartsWith("product-card", CardWords[0]);
    assert OpensCard("div", attrs);
    assert Lookup(attrs, "href") == Value("/card/1");
    assert StartsWith("/card/1", "/");
    assert ResolveHref("/card/1") == ListingUrl;
    assert OnStartTag(Init, "div", attrs) == Some(ListingOpened);
    assert ListingOpen[1..] == [];
  }

  lemma ListingEntersName()
    ensures OnStartTag(ListingOpened, "h3", [("class", Some("product-name"))]) == Some(ListingInName)
  {
    var attrs: Attrs := [("class", Some("product-name"))];
    assert LastIndex(attrs, "class") == 0;
    assert Classes(attrs) == Some("product-name");
    assert OccursAt("product-name", NameWords[1], 8);
    ContainsIffOccurs("product-name", NameWords[1]);
  }

  /** Closing a heading stores buffered text that has no whitespace at either end as it is. */
  lemma HeadingStoresName(st: ParserState, name: string)
    requires st.inName && |name| > 0 && !IsSpace(name[0]) && !IsSpace(name[|name| - 1])
    ensures OnEndTag(st.(buffer := name), "h3")
            == st.(current := st.current.(name := Some(name)), inName := false, buffer := "")
  {
    StripUnchanged(name);
    assert "h3" in NameTags;
  }

  lemma ListingStoresName()
    ensures OnEndTag(ListingInName.(buffer := "Black Lotus"), "h3") == ListingNamed
  {
    var name := "Black Lotus";
    assert name[0] == 'B' && name[|name| - 1] == 's';
    HeadingStoresName(ListingInName, name);
  }

  /** Three callbacks in a row. */
  lemma FeedThree(st: ParserState, a: Event, b: Event, c: Event, s1: ParserState, s2: ParserState, s3: ParserState)
    requires Step(st, a) == Some(s1) && Step(s1, b) == Some(s2) && Step(s2, c) == Some(s3)
    ensures Feed(st, [a, b, c]) == Some(s3)
  {
    assert [c][1..] == [];
    assert Feed(s2, [c]) == Feed(s3, []) == Some(s3);
    assert [b, c][1..] == [c];
    assert Feed(s1, [b, c]) == Feed(s2, [c]);
    assert [a, b, c][1..] == [b, c];
    assert Feed(st, [a, b, c]) == Feed(s1, [b, c]);
  }

  lemma ListingBuffersName()
    ensures OnData(ListingInName, "Black Lotus") == ListingInName.(buffer := "Black Lotus")
  {
    assert ListingInName.buffer + "Black Lotus" == "Black Lotus";
  }

  lemma ListingReadsName()
    ensures Feed(ListingOpened, ListingHeading) == Some(ListingNamed)
  {
    var open, text, close := ListingHeading[0], ListingHeading[1], ListingHeading[2];
    var buffered := ListingInName.(buffer := "Black Lotus");
    ListingEntersName();
    assert Step(ListingOpened, open) == Some(ListingInName);
    ListingBuffersName();
    assert Step(ListingInName, text) == Some(buffered);
    ListingStoresName();
    assert Step(buffered, close) == Some(ListingNamed);
    assert ListingHeading == [open, text, close];
    FeedThree(ListingOpened, open, text, close, ListingInName, buffered, ListingNamed);
  }

  /** A word that does not fit cannot be contained. */
  lemma {:induction false} TooLongNotContained(s: string, sub: string)
    requires |s| < |sub|
    ensures !Contains(s, sub)
    decreases |s|
  {
    if |s| > 0 {
      TooLongNotContained(s[1..], sub);
    }
  }

  /** "price" names no title: none of the name words occurs in it. */
  lemma PriceIsNoName()
    ensures !ContainsAny("price", NameWords)
  {
    var p := "price";
    assert p[1..] == "rice" && p[2..] == "ice";
    TooLongNotContained("rice", "title");
    TooLongNotContained("rice", "product");
    TooLongNotContained("rice", "heading");
    TooLongNotContained("ice", "name");
    assert !StartsWith("price", "name") by { assert "price"[0] != "name"[0]; }
    assert !StartsWith("rice", "name") by { assert "rice"[0] != "name"[0]; }
    assert !StartsWith("price", "title") by { assert "price"[0] != "title"[0]; }
    assert !Contains("price", NameWords[0]);
    assert !Contains("price", NameWords[1]);
    assert !Contains("price", NameWords[2]);
    assert !Contains("price", NameWords[3]);
  }

  /** A `<span class="price">` never changes the parser state: outside a card
      it is ignored, and inside one it takes the name branch of the start-tag
      handler, where its class names no title. */
  lemma PriceSpanIgnored(st: ParserState)
    ensures OnStartTag(st, "span", [("class", Some("price"))]) == Some(st)
  {
    var attrs: Attrs := [("class", Some("price"))];
    assert LastIndex(attrs, "class") == 0;
    assert Classes(attrs) == Some("price");
    PriceIsNoName();
    assert !OpensCard("span", attrs);
  }

  lemma ListingSkipsPrice()
    ensures Feed(ListingNamed, ListingPrice) == Some(ListingNamed)
  {
    PriceSpanIgnored(ListingNamed);
    assert OnData(ListingNamed, "$5.00") == ListingNamed;
    assert OnEndTag(ListingNamed, "span") == ListingNamed;
    FeedThree(ListingNamed, StartTag("span", [("class", Some("price"))]), Data("$5.00"), EndTag("span"),
              ListingNamed, ListingNamed, ListingNamed);
  }

  lemma ListingCloses()
    ensures Feed(ListingNamed, ListingClose) == Some(ListingClosed)
  {
    assert OnEndTag(ListingNamed, "div") == ListingClosed;
    assert ListingClose[1..] == [];
  }

  /** The listing yields exactly one card, with the heading text as name and
      the absolute link; the price `span` takes the name branch of the start-tag
      handler (its class names no title), so no price is recorded. */
  lemma ListingYieldsOneCard()
    ensures ParseCards(ListingDocument) ==
              Some([Card(Some("Black Lotus"), None, None, Some("https://www.tcgplayer.com/card/1"))])
  {
    ListingOpens();
    ListingReadsName();
    ListingSkipsPrice();
    ListingCloses();
    FeedConcat(Init, ListingOpen, ListingHeading);
    FeedConcat(Init, ListingOpen + ListingHeading, ListingPrice);
    FeedConcat(Init, ListingOpen + ListingHeading + ListingPrice, ListingClose);
  }
}

=== FILE: text.dfy ===
/** The string primitives the scraper relies on: Python's `str.strip`,
    `str.lower` (on the keywords it is used with), `in` on strings,
    `str.startswith`, and the tag removal `re.sub(r'<[^>]+>', '', s)`. */
module Text {

  /** The characters Python's `str.isspace` accepts, which `str.strip()` removes:
      tab to carriage return, the four separators U+001C-U+001F, the spaces of
      Unicode (U+2000-U+200A among them) and the line and paragraph separators. */
  const SpaceChars: set<char> := {
    ' ', '\t', '\n', '\U{B}', '\U{C}', '\r',
    '\U{1C}', '\U{1D}', '\U{1E}', '\U{1F}',
    '\U{85}', '\U{A0}', '\U{1680}',
    '\U{2000}', '\U{2001}', '\U{2002}', '\U{2003}', '\U{2004}', '\U{2005}',
    '\U{2006}', '\U{2007}', '\U{2008}', '\U{2009}', '\U{200A}',
    '\U{2028}', '\U{2029}', '\U{202F}', '\U{205F}', '\U{3000}'
  }

  predicate IsSpace(c: char) {
    c in SpaceChars
  }

  /** Drops leading whitespace. */
  function TrimLeft(s: string): (r: string)
    ensures |r| <= |s| && r == s[|s| - |r|..]
    ensures forall k :: 0 <= k < |s| - |r| ==> IsSpace(s[k])
    ensures |r| > 0 ==> !IsSpace(r[0])
    decreases |s|
  {
    if |s| > 0 && IsSpace(s[0]) then TrimLeft(s[1..]) else s
  }

  /** Drops trailing whitespace. */
  function TrimRight(s: string): (r: string)
    ensures |r| <= |s| && r == s[..|r|]
    ensures forall k :: |r| <= k < |s| ==> IsSpace(s[k])
    ensures |r| > 0 ==> !IsSpace(r[|r| - 1])
    decreases |s|
  {
    if |s| > 0 && IsSpace(s[|s| - 1]) then TrimRight(s[..|s| - 1]) else s
  }

  /** Everything in `s` before `i` and from `j` on is whitespace. */
  predicate SpaceOutside(s: string, i: int, j: int) {
    && 0 <= i <= j <= |s|
    && (forall k :: 0 <= k < i ==> IsSpace(s[k]))
    && (forall k :: j <= k < |s| ==> IsSpace(s[k]))
  }

  /** `r` is the slice `s[i..j]` and everything cut off around it is whitespace. */
  predicate SliceInSpace(s: string, r: string, i: int, j: int) {
    SpaceOutside(s, i, j) && r == s[i..j]
  }

  /** Cutting whitespace off the front of `s` to get `t`, then off the back of
      `t` to get `r`, leaves a slice of `s` with only whitespace around it. */
  lemma CutBothEnds(s: string, t: string, r: string)
    requires |t| <= |s| && t == s[|s| - |t|..]
    requires forall k :: 0 <= k < |s| - |t| ==> IsSpace(s[k])
    requires |t| > 0 ==> !IsSpace(t[0])
    requires |r| <= |t| && r == t[..|r|]
    requires forall k :: |r| <= k < |t| ==> IsSpace(t[k])
    requires |r| > 0 ==> !IsSpace(r[|r| - 1])
    ensures SliceInSpace(s, r, |s| - |t|, |s| - |t| + |r|)
    ensures |r| > 0 ==> !IsSpace(r[0]) && !IsSpace(r[|r| - 1])
  {
    var i := |s| - |t|;
    var j := i + |r|;
    assert r == s[i..j];
    if |r| > 0 {
      assert r[0] == t[0];
    }
    forall k | j <= k < |s|
      ensures IsSpace(s[k])
    {
      assert s[k] == t[k - i];
    }
  }

  /** Trimming the front and then the back cuts only whitespace, and leaves a slice. */
  lemma TrimBoth(s: string)
    ensures exists i, j :: SliceInSpace(s, TrimRight(TrimLeft(s)), i, j)
  {
    var t := TrimLeft(s);
    CutBothEnds(s, t, TrimRight(t));
  }

  /** Trimming the front and then the back leaves no whitespace at either end. */
  lemma TrimBothEnds(s: string)
    ensures var r := TrimRight(TrimLeft(s));
            |r| > 0 ==> !IsSpace(r[0]) && !IsSpace(r[|r| - 1])
  {
    var t := TrimLeft(s);
    var r := TrimRight(t);
    if |r| > 0 {
      assert r[0] == t[0];
    }
  }

  /** Python's `s.strip()`: the slice of `s` left after removing whitespace at
      both ends; everything removed is whitespace and the result neither starts
      nor ends with whitespace. */
  function Strip(s: string): (r: string)
    ensures exists i, j :: SliceInSpace(s, r, i, j)
    ensures |r| > 0 ==> !IsSpace(r[0]) && !IsSpace(r[|r| - 1])
  {
    TrimBoth(s);
    TrimBothEnds(s);
    TrimRight(TrimLeft(s))
  }

  /** Text without whitespace at either end is its own strip. */
  lemma StripUnchanged(s: string)
    requires |s| > 0 && !IsSpace(s[0]) && !IsSpace(s[|s| - 1])
    ensures Strip(s) == s
  {
    assert TrimLeft(s) == s;
    assert TrimRight(s) == s;
  }

  /** Stripping is empty exactly when the text is all whitespace. */
  lemma StripEmptyIffBlank(s: string)
    ensures |Strip(s)| == 0 <==> forall k :: 0 <= k < |s| ==> IsSpace(s[k])
  {
    var r := Strip(s);
    var i, j :| SliceInSpace(s, r, i, j);
    if |r| > 0 {
      assert s[i] == r[0];
    } else {
      assert i == j;
    }
  }

  /** Stripping twice is stripping once. */
  lemma StripIdempotent(s: string)
    ensures Strip(Strip(s)) == Strip(s)
  {
    var r := Strip(s);
    var r2 := Strip(r);
    if |r| > 0 {
      var i, j :| SliceInSpace(r, r2, i, j);
    } else {
      assert r2 == [];
    }
  }

  /** Lower-cases the ASCII letters A-Z. For the all-ASCII keywords the scraper
      searches for, this agrees with Python's `str.lower()`: the only non-ASCII
      characters that lower-case to ASCII letters are U+212A (to `k`) and U+0130
      (to `i` followed by U+0307), and neither can complete one of those keywords. */
  function LowerChar(c: char): (r: char)
    ensures !('A' <= r <= 'Z')
    ensures r != c <==> 'A' <= c <= 'Z'
    // a capital becomes the small letter at the same place in the alphabet
    ensures 'A' <= c <= 'Z' ==> 'a' <= r <= 'z' && r as int - 'a' as int == c as int - 'A' as int
  {
    if 'A' <= c <= 'Z' then (c as int + 32) as char else c
  }

  /** Lower-cases text character by character: no capital is left, only
      capitals change, and text without capitals is its own lower-case form. */
  function Lower(s: string): (r: string)
    ensures |r| == |s|
    ensures forall k :: 0 <= k < |r| ==> !('A' <= r[k] <= 'Z')
    ensures forall k :: 0 <= k < |s| && !('A' <= s[k] <= 'Z') ==> r[k] == s[k]
    // a capital becomes the small letter at the same place in the alphabet
    ensures forall k :: 0 <= k < |s| && 'A' <= s[k] <= 'Z' ==>
              'a' <= r[k] <= 'z' && r[k] as int - 'a' as int == s[k] as int - 'A' as int
    ensures (forall k :: 0 <= k < |s| ==> !('A' <= s[k] <= 'Z')) ==> r == s
  {
    seq(|s|, k requires 0 <= k < |s| => LowerChar(s[k]))
  }

  /** Lower-casing twice is lower-casing once. */
  lemma LowerIdempotent(s: string)
    ensures Lower(Lower(s)) == Lower(s)
  {
  }

  /** Python's `s.startswith(prefix)`. */
  predicate StartsWith(s: string, prefix: string) {
    |prefix| <= |s| && s[..|prefix|] == prefix
  }

  /** `sub` occurs in `s` at position `i`. */
  predicate OccursAt(s: string, sub: string, i: int) {
    0 <= i && i + |sub| <= |s| && s[i..i + |sub|] == sub
  }

  /** Python's `sub in s`, computed by scanning the suffixes of `s`. */
  predicate Contains(s: string, sub: string)
    decreases |s|
  {
    StartsWith(s, sub) || (|s| > 0 && Contains(s[1..], sub))
  }

  /** The scan agrees with the positional definition of substring. */
  lemma {:induction false} ContainsIffOccurs(s: string, sub: string)
    ensures Contains(s, sub) <==> exists i :: OccursAt(s, sub, i)
    decreases |s|
  {
    if StartsWith(s, sub) {
      assert OccursAt(s, sub, 0);
    } else if |s| == 0 {
    } else {
      ContainsIffOccurs(s[1..], sub);
      if Contains(s[1..], sub) {
        var i :| OccursAt(s[1..], sub, i);
        assert s[1..][i..i + |sub|] == s[i + 1..i + 1 + |sub|];
        assert OccursAt(s, sub, i + 1);
      }
      if exists i :: OccursAt(s, sub, i) {
        var i :| OccursAt(s, sub, i);
        if i > 0 {
          assert s[1..][i - 1..i - 1 + |sub|] == s[i..i + |sub|];
          assert OccursAt(s[1..], sub, i - 1);
        }
      }
    }
  }

  /** Python's `any(w in s for w in words)`. */
  predicate ContainsAny(s: string, words: seq<string>) {
    exists k :: 0 <= k < |words| && Contains(s, words[k])
  }

  /** The regular expression `<[^>]+>` matches at the start of `s`: a `<`,
      at least one character other than `>`, and a closing `>`. */
  predicate TagAtStart(s: string) {
    |s| >= 2 && s[0] == '<' && s[1] != '>' && '>' in s
  }

  /** Index of the first `>` in `s`. */
  function IndexOfGt(s: string): (r: nat)
    requires '>' in s
    ensures r < |s| && s[r] == '>'
    ensures forall k :: 0 <= k < r ==> s[k] != '>'
  {
    if s[0] == '>' then 0 else 1 + IndexOfGt(s[1..])
  }

  /** Python's `re.sub(r'<[^>]+>', '', s)`: scanning left to right, every
      match of the tag pattern is deleted and the scan resumes after it. */
  function RemoveTags(s: string): (r: string)
    ensures |r| <= |s|
    ensures '<' !in s ==> r == s
    decreases |s|
  {
    if |s| == 0 then ""
    else if TagAtStart(s) then RemoveTags(s[IndexOfGt(s) + 1..])
    else [s[0]] + RemoveTags(s[1..])
  }

  /** Tag removal only deletes characters. */
  lemma {:induction false} RemoveTagsChars(s: string, c: char)
    ensures c in RemoveTags(s) ==> c in s
    decreases |s|
  {
    if |s| == 0 {
    } else if TagAtStart(s) {
      RemoveTagsChars(s[IndexOfGt(s) + 1..], c);
    } else {
      RemoveTagsChars(s[1..], c);
    }
  }

  /** Text before the first `<` survives tag removal unchanged, ahead of
      whatever tag removal makes of the rest. */
  lemma {:induction false} RemoveTagsKeepsPlainPrefix(a: string, b: string)
    requires '<' !in a
    ensures RemoveTags(a + b) == a + RemoveTags(b)
    decreases |a|
  {
    if |a| == 0 {
      assert a + b == b;
    } else {
      var s := a + b;
      assert a[0] in a;
      assert s[0] == a[0] && !TagAtStart(s);
      assert RemoveTags(s) == [a[0]] + RemoveTags(s[1..]);
      assert s[1..] == a[1..] + b;
      assert forall c :: c in a[1..] ==> c in a;
      RemoveTagsKeepsPlainPrefix(a[1..], b);
      assert [a[0]] + (a[1..] + RemoveTags(b)) == ([a[0]] + a[1..]) + RemoveTags(b);
      assert [a[0]] + a[1..] == a;
    }
  }

  /** A whole tag is deleted and the scan resumes right after its `>`, so the
      text that follows it survives as tag removal leaves it. */
  lemma RemoveTagsDropsTag(x: string, b: string)
    requires |x| > 0 && '>' !in x
    ensures RemoveTags("<" + x + ">" + b) == RemoveTags(b)
  {
    var s := "<" + x + ">" + b;
    assert s[0] == '<' && s[1] == x[0] && s[|x| + 1] == '>';
    assert x[0] in x;
    assert TagAtStart(s);
    forall k | 1 <= k <= |x|
      ensures s[k] != '>'
    {
      assert s[k] == x[k - 1] && x[k - 1] in x;
    }
    assert IndexOfGt(s) == |x| + 1;
    assert s[|x| + 2..] == b;
  }

  /** A capture made of plain text around a tag keeps its plain text. */
  lemma TextAroundTag(a: string, x: string, b: string)
    requires '<' !in a && |x| > 0 && '>' !in x
    ensures RemoveTags(a + ("<" + x + ">" + b)) == a + RemoveTags(b)
  {
    RemoveTagsKeepsPlainPrefix(a, "<" + x + ">" + b);
    RemoveTagsDropsTag(x, b);
  }

  /** Plain text between an opening and a closing tag is all that survives. */
  lemma TextBetweenTags(open: string, text: string, close: string)
    requires |open| > 0 && '>' !in open && |close| > 0 && '>' !in close && '<' !in text
    ensures RemoveTags("<" + open + ">" + text + ("<" + close + ">")) == text
  {
    RemoveTagsDropsTag(close, "");
    assert "<" + close + ">" + "" == "<" + close + ">";
    RemoveTagsKeepsPlainPrefix(text, "<" + close + ">");
    assert text + "" == text;
    RemoveTagsDropsTag(open, text + ("<" + close + ">"));
    assert "<" + open + ">" + text + ("<" + close + ">") == "<" + open + ">" + (text + ("<" + close + ">"));
  }

  /** A link capture loses its markup and keeps its text. */
  lemma AnchorCaptureKeepsText()
    ensures RemoveTags("<a href=\"/p/1\">" + "Black Lotus" + "</a>") == "Black Lotus"
  {
    var open, text, close := "a href=\"/p/1\"", "Black Lotus", "/a";
    assert '>' !in open && '>' !in close && '<' !in text;
    assert "<a href=\"/p/1\">" == "<" + open + ">";
    assert "</a>" == "<" + close + ">";
    TextBetweenTags(open, text, close);
  }

  /** No match of the tag pattern survives tag removal anywhere in the result. */
  lemma {:induction false} RemoveTagsLeavesNoTag(s: string)
    ensures forall i :: 0 <= i < |RemoveTags(s)| ==> !TagAtStart(RemoveTags(s)[i..])
    decreases |s|
  {
    var r := RemoveTags(s);
    if |s| == 0 {
    } else if TagAtStart(s) {
      RemoveTagsLeavesNoTag(s[IndexOfGt(s) + 1..]);
    } else {
      var rest := RemoveTags(s[1..]);
      RemoveTagsLeavesNoTag(s[1..]);
      assert r == [s[0]] + rest;
      forall i | 0 <= i < |r|
        ensures !TagAtStart(r[i..])
      {
        if i == 0 {
          if TagAtStart(r) {
            assert s[0] == '<';
            if !(|s| >= 2 && s[1] == '>') {
              assert '>' !in s;
              var k :| 0 <= k < |r| && r[k] == '>';
              assert k > 0 && rest[k - 1] == '>';
              RemoveTagsChars(s[1..], '>');
            }
          }
        } else {
          assert r[i..] == rest[i - 1..];
        }
      }
    }
  }

  /** Text with no tag match anywhere is left unchanged. */
  lemma {:induction false} RemoveTagsNoTagUnchanged(s: string)
    requires forall i :: 0 <= i < |s| ==> !TagAtStart(s[i..])
    ensures RemoveTags(s) == s
    decreases |s|
  {
    if |s| > 0 {
      assert !TagAtStart(s[0..]);
      assert s[0..] == s;
      forall i | 0 <= i < |s[1..]|
        ensures !TagAtStart(s[1..][i..])
      {
        assert s[1..][i..] == s[i + 1..];
      }
      RemoveTagsNoTagUnchanged(s[1..]);
    }
  }

  /** Removing tags a second time changes nothing. */
  lemma RemoveTagsIdempotent(s: string)
    ensures RemoveTags(RemoveTags(s)) == RemoveTags(s)
  {
    RemoveTagsLeavesNoTag(s);
    RemoveTagsNoTagUnchanged(RemoveTags(s));
  }
}

=== FILE: wrappers.dfy ===
/** The optional values the scraper passes around: a missing dictionary key,
    a failed parse, an exception that ends the run. */
module Wrappers {

  datatype Option<+T> = None | Some(value: T)
}
